=== FILE: README.md ===
# agendaprof: the rules inside the teacher's screens

agendaprof is a small agenda for teachers. A teacher keeps classes (`turmas`),
the weekly slots each class meets in (`agenda`), and a lesson record per
class, date and time (`registros_aula`). All data lives in a remote database.
The four screens modelled here hold the application's logic:

- **The class editor** (`screens/NovaTurma.tsx`, module `ScheduleEditor`):
  - the `HH:MM` keystroke mask;
  - the editable slot list;
  - the `"start - end"` text a slot's time is stored as;
  - the cached "next class" label;
  - saving and reopening a class with its slots.
- **The class list** (`screens/Turmas.tsx`, module `ClassList`):
  - slots grouped by class;
  - the classes meeting today;
  - case-insensitive search with the `Hoje` chip;
  - the three-step delete of a class.
- **The day view** (`screens/Agenda.tsx`, module `DayView`):
  - the slots of the selected weekday whose class still exists;
  - the day's lesson records keyed by `turma_id-horario`, where the last record wins;
  - the "planned" badge and the `isToday` test;
  - the date picker, including JavaScript's `new Date(y, m, d)` carrying rules.
- **The lesson record screen** (`screens/RegistroAula.tsx`, module `LessonRecord`):
  - the reconciliation run `fetchClassAndSchedules`;
  - the future-date test;
  - the reference card;
  - the update-or-insert save with its noon-anchored timestamp.

Shared modules:

| module | contents |
|---|---|
| `Wrappers` | `Option` |
| `Text` | the JavaScript string operations the screens use |
| `Seqs` | `filter`, `[...new Set()]`, and a stable sort standing for `ORDER BY` |
| `Calendar` | dates, instants, day ranges, weekday |
| `Tables` | the three tables, their query predicates and orders, `maybeSingle` |

The database is a value `Db` of three sequences.

- A query is a filter, plus a sort where the query orders its rows.
- Every read or write whose error or missing data the code handles takes its failure as an input (a set of failing steps, or a flag), so both the error branch and the data branch of each call are modelled.
- React state is an explicit `Screen` value.
- An effect run is a function from the previous screen to the next.

`Reconcile` reads `horario` and `existingRecordId` from the previous screen, as the closure in the source does.

Some of the code's behaviours are easy to misread. The model follows the code and proves what follows from it:

| the code | what follows | proved by |
|---|---|---|
| the record and slot deletes are awaited but their errors are never looked at; only the class delete's error is checked (`screens/Turmas.tsx:74-80`) | `registros_aula.turma_id` references `turmas.id` (`types/supabase.ts:76-84`), so a failed record delete makes the class delete fail too. The alert shows and the class stays, but its slots are already gone. | `ClassList.FailedRecordDeleteKeepsClass` |
| when no class row has the id, `.single()` gives no data and the header is not set (`screens/RegistroAula.tsx:40-48`) | the screen keeps the previous name and subject and goes on reading slots and records | `LessonRecord.ReconcileLoads` |
| after the class write succeeds, the editor's slot delete and insert are not checked (`screens/NovaTurma.tsx:144-160`) | the screen navigates back whatever the slot writes did | `ScheduleEditor.Submit` |
| the comment at `screens/RegistroAula.tsx:190` says the reference card is for a past date, but the condition on line 191 has no date test | the card shows on any date when no record is remembered and a reference exists | `LessonRecord.ShowsReferenceCard` (the model follows the condition) |

## Model

| member | source | states |
|---|---|---|
| ScheduleEditor.MaskTime | screens/NovaTurma.tsx:89-103 | The digits of the masked text are exactly the first four or fewer digits of the input, with every other character dropped. Up to two digits pass through as they are; with more, a colon sits at index 2. The output is always two or fewer digits, or `DD:D`/`DD:DD`. |
| ScheduleEditor.MaskTimeIdempotent | screens/NovaTurma.tsx:89-103 | Masking a masked value changes nothing. |
| ScheduleEditor.MaskTimeFixpoints | screens/NovaTurma.tsx:89-103 | A text is left unchanged by the mask exactly when it has the mask's output shape, so the mask's outputs are exactly its fixed points. |
| ScheduleEditor.MaskShapedHasNoSpace | screens/NovaTurma.tsx:97-100 | No mask output contains a space, so none can contain the `" - "` separator. |
| ScheduleEditor.AddSchedule | screens/NovaTurma.tsx:73-75 | Appends one slot `{1, "", ""}` and leaves every existing slot in place. |
| ScheduleEditor.RemoveSchedule | screens/NovaTurma.tsx:77-81 | With more than one slot, exactly slot `index` is removed (an out-of-range index removes nothing). With one slot the list is unchanged, so a non-empty list stays non-empty. |
| ScheduleEditor.UpdateSchedule | screens/NovaTurma.tsx:83-87 | Only the named field of slot `index` takes the new value. The slot's other fields and every other slot are unchanged, and the length is kept. |
| ScheduleEditor.HandleTimeChange | screens/NovaTurma.tsx:89-103 | The masked text goes into the named time field of slot `index` and nowhere else. |
| ScheduleEditor.StepKeepsInvariant | screens/NovaTurma.tsx:73-103 | Any one user action on the slot list keeps it non-empty and keeps every time field a mask output. |
| ScheduleEditor.RunKeepsInvariant | screens/NovaTurma.tsx:73-103 | The same holds after any sequence of user actions (by induction over the actions). |
| ScheduleEditor.EditorNeverEmpty | screens/NovaTurma.tsx:18 | From the initial one-blank-slot list, no sequence of actions empties the list. |
| ScheduleEditor.JoinTime | screens/NovaTurma.tsx:152 | The stored `time` starts with the start time, and equals it exactly when there is no end time. Its inverse is stated by `JoinSplitRoundTrip`. |
| ScheduleEditor.JoinSplitRoundTrip | screens/NovaTurma.tsx:62-66 | Splitting the stored `time` of a start and an end recovers both, when neither holds a space. A missing second piece reads back as `""`. |
| ScheduleEditor.MaskedTimesRoundTrip | screens/NovaTurma.tsx:152 | Any two mask outputs, stored as one slot's `time`, split back into the same start and end. |
| ScheduleEditor.JoinSplitStraddle | screens/NovaTurma.tsx:62-66 | Parts that do not contain `" - "` are not enough for the round trip: `"x -"` with `" y"` reads back with start `"x"`. |
| ScheduleEditor.SplitTime | screens/NovaTurma.tsx:62-66 | Without `" - "` the start is the whole text and the end is empty. Otherwise the start is the text before the first separator, and the end is the text after it up to the next separator or the end, so the end holds no separator. |
| ScheduleEditor.SplitTimeOverlap | screens/NovaTurma.tsx:62-66 | Example of `SplitTime` with overlapping separators: `"x - a - - b"` reads back as start `"x"` and end `"a"`. |
| ScheduleEditor.NextClassLabel | screens/NovaTurma.tsx:111-114 | The label built from the first slot. What it holds is stated by `NextClassLabelDecodes`. |
| ScheduleEditor.NextClassLabelDecodes | screens/NovaTurma.tsx:111-114 | The label is the first slot's three-letter weekday, a space, and the first slot's stored time, from which its start and end read back. Any other list with the same first slot gets the same label. |
| ScheduleEditor.NextClassLabelExamples | screens/NovaTurma.tsx:111-114 | Examples of `NextClassLabelDecodes`: a Tuesday 08:00–09:30 slot gives `Ter 08:00 - 09:30`. Without an end time it gives `Ter 08:00`. |
| ScheduleEditor.AgendaInserts | screens/NovaTurma.tsx:147-155 | The rows written are class slots of the target class titled `name - subject`. Every slot with a non-blank trimmed start gets a row, and every row comes from such a slot. |
| ScheduleEditor.LoadSchedules | screens/NovaTurma.tsx:60-68 | A failed or empty slot read keeps the list on screen, so a non-empty list stays non-empty. A non-empty read replaces the list with one slot per row, in row order: the row's weekday, and the start and end split from its `time`. |
| ScheduleEditor.SavedSchedulesReload | screens/NovaTurma.tsx:60-68 | Reading back the rows the save writes gives exactly the slots that had a start time, in order, or the current list when none had one. |
| ScheduleEditor.UpdateTurmas | screens/NovaTurma.tsx:118-127 | The update rewrites every class row with the id and no other row, and keeps the table's length. |
| ScheduleEditor.ReplaceSlots | screens/NovaTurma.tsx:144-160 | The slot table after the delete and the insert, where a failed step changes nothing. Its result is stated by `ReplaceSlotsExact`. |
| ScheduleEditor.ReplaceSlotsExact | screens/NovaTurma.tsx:144-160 | When the delete and the insert both succeed, the class's slots become exactly the new rows, and the other classes' slots keep their contents and order. |
| ScheduleEditor.Submit | screens/NovaTurma.tsx:105-164 | A failed class write changes nothing and stays on the screen. Otherwise the screen navigates back, whatever the slot writes did. A new class is appended with the label of the first slot, and lesson records are never touched. |
| ScheduleEditor.WriteTurmaLabels | screens/NovaTurma.tsx:111-142 | After the class write, the class row with the target id carries the freshly built label. |
| ScheduleEditor.SubmitReplacesSlots | screens/NovaTurma.tsx:105-164 | A save without failures leaves the class with exactly the written slots and the new label, and leaves the other classes' slots untouched. |
| ScheduleEditor.FetchTurma | screens/NovaTurma.tsx:36-71 | The form loads exactly when the class read succeeds and exactly one class has the id. A failed read, or no row or several rows, gives "not found" (the alert and the way back), even for an existing class. A loaded list is never empty. |
| ScheduleEditor.UpdateTurmasSelect | screens/NovaTurma.tsx:118-127 | The rows with the id after the update are the rows with the id before, the same number of them, each with the form applied, in the same order. |
| ScheduleEditor.WriteTurma | screens/NovaTurma.tsx:118-142 | An update keeps the number of class rows. An insert appends one row under the fresh id and keeps the rows before it. The row that holds the form is stated by `WriteTurmaSelect`. |
| ScheduleEditor.WriteTurmaSelect | screens/NovaTurma.tsx:118-142 | After an update of one existing row, or an insert under an unused id, exactly one class row has the id and it holds the form's fields. |
| ScheduleEditor.FetchSaved | screens/NovaTurma.tsx:36-71 | Opening a class whose single row holds a form reloads that form (an empty status shown as `ATIVA`) together with the slots read. |
| ScheduleEditor.SubmitThenFetch | screens/NovaTurma.tsx:36-164 | Save followed by reopen is a round trip. It shows the form as saved and the slots that had a start time. |
| ClassList.Group | screens/Turmas.tsx:49-53 | Every group key is a non-empty class id, and no group is empty. |
| ClassList.GroupExact | screens/Turmas.tsx:49-53 | A class has a group exactly when it has a slot. Its group is exactly its slots, in input order. |
| ClassList.GroupSorted | screens/Turmas.tsx:41-53 | Each group keeps the order of the rows it was built from. |
| ClassList.FalsyIdUngrouped | screens/Turmas.tsx:50 | A slot whose class id is null or empty is in no group. |
| ClassList.TodayPushes | screens/Turmas.tsx:54-56 | An id is pushed exactly when it is non-empty and some slot of it meets on `today`. |
| ClassList.TodayIds | screens/Turmas.tsx:54-61 | Today's ids are duplicate-free. They hold an id exactly when it is non-empty and some slot of it meets on `today`. |
| ClassList.ChipsFor | screens/Turmas.tsx:178-182 | The chip area: the group of the class, or `Sem horários` when the lookup finds none. What it shows is stated by `ChipsOfGroup`. |
| ClassList.ChipsOfGroup | screens/Turmas.tsx:178-182 | A class shows chips for exactly its own slots and never an empty chip list. It shows `Sem horários` exactly when it has no slot. |
| ClassList.MatchesSearch | screens/Turmas.tsx:93-94 | Name or subject contains the query, with both sides lower-cased. Stated by `EmptyQueryMatches` and `SearchFindsOwnName`. |
| ClassList.EmptyQueryMatches | screens/Turmas.tsx:93-94 | The empty search matches every class. |
| ClassList.SearchFindsOwnName | screens/Turmas.tsx:93-94 | Searching for a class's own name finds it, whatever the letter case. |
| ClassList.IsShown | screens/Turmas.tsx:92-101 | The filter test: the search matches and, under `Hoje`, the class meets today. The list it selects is stated by `FilteredClasses`. |
| ClassList.FilteredClasses | screens/Turmas.tsx:92-101 | The result is an order-preserving sublist of the classes. A class is in it exactly when it matches the search and, under `Hoje`, meets today. |
| ClassList.TodayNarrowsAll | screens/Turmas.tsx:96-100 | The `Hoje` list is the list under any other chip, restricted to today's classes. |
| ClassList.EmptySearchListsAll | screens/Turmas.tsx:92-101 | With an empty search and any chip but `Hoje`, the list is all classes, in order. |
| ClassList.ClassSlotRows | screens/Turmas.tsx:37-42 | The agenda query returns a permutation of the class slots, sorted by weekday and then time. |
| ClassList.FetchData | screens/Turmas.tsx:24-65 | The classes are a name-sorted permutation of the table; a failed read keeps the old list. The groups are sorted by weekday and time, and today's ids are duplicate-free; a failed slot read keeps both. |
| ClassList.FetchDataSlots | screens/Turmas.tsx:37-61 | After a successful load, each group holds exactly its class's class slots, and today's ids are exactly the classes with a class slot today. |
| ClassList.ConfirmDelete | screens/Turmas.tsx:67-90 | With no target nothing happens. The alert shows exactly when the class delete fails: by its own error, or because a failed record or slot delete left rows that still reference the class. After an alert the screen and the classes are unchanged. Otherwise the local list loses exactly the class's entries, keeps the order of the rest, and the dialog closes. Each successful step removes exactly the class's rows from its table; a failed step leaves its table unchanged. |
| ClassList.DeleteLeavesNoTrace | screens/Turmas.tsx:67-90 | A delete without failures leaves no class, slot or record with the id, in the database or on screen. |
| ClassList.DeleteKeepsOtherSlots | screens/Turmas.tsx:76 | Every other class's slots stay exactly as they were, order included. |
| ClassList.FailedRecordDeleteKeepsClass | screens/Turmas.tsx:73-86 | When only the record delete fails and the class has a record, the class delete is refused: the alert shows, the screen, the classes and the record stay, and the class's slots are gone. |
| ClassList.DeleteNeverOrphans | screens/Turmas.tsx:67-90 | Whatever steps fail, a database where every slot and record names an existing class stays that way. This restates the assumed NO ACTION foreign-key rule (see "## Left out"), not a check in the code. |
| DayView.PlannedMap | screens/Agenda.tsx:40-46 | A key is in the map exactly when some record of the day has it. The value under a key is one of those records. |
| DayView.LastWins | screens/Agenda.tsx:42-44 | Of several records with one key, the map keeps the last. |
| DayView.KeyInjective | screens/Agenda.tsx:43 | For ids of equal length, equal keys mean equal ids and equal times. |
| DayView.PlannedExactly | screens/Agenda.tsx:135 | When every record names a class (a non-null `turma_id`) and all ids have equal length, a slot is planned exactly when a record of its class has the slot's time as `horario`. |
| DayView.KeyCollision | screens/Agenda.tsx:43 | Keys collide for ids of different lengths, and the lookup at line 135 uses the same key shape. With ids of different lengths, a record of class `a-b` at `c` marks class `a`'s slot at `b-c` as planned. |
| DayView.DaySchedule | screens/Agenda.tsx:18-24 | The day's slots are a permutation of the slots on that weekday whose class exists (the inner join), sorted by time. |
| DayView.DayRecords | screens/Agenda.tsx:33-38 | The day's records are the records whose timestamp lies in the day's range, in table order. |
| DayView.NoonRecordListed | screens/Agenda.tsx:33-38 | A record saved at noon of a day is listed on that day and on no other. |
| DayView.IsToday | screens/Agenda.tsx:54-59 | A date is today exactly when it is a valid date on the clock's calendar day. |
| DayView.PickTodayIsToday | screens/Agenda.tsx:54-67 | Picking the picker's text for today's date (years 100 to 9999) selects a date the screen marks as today. |
| DayView.CarryDays | screens/Agenda.tsx:64 | The day carried into neighbouring months always gives a real date. An in-range day is kept as it is. |
| DayView.CarryDaysCount | screens/Agenda.tsx:64 | The carried date lies `d - 1` days after the first of the month, whichever way the carry goes. |
| DayView.FullYear | screens/Agenda.tsx:64 | Years 0 to 99 mean 1900 to 1999, with the same last two digits, and every other year is kept. |
| DayView.NewDate | screens/Agenda.tsx:64 | `new Date(y, m, d)` is always a real date. For an in-range month and day it is `(y, m+1, d)`. |
| DayView.NewDateCount | screens/Agenda.tsx:64 | `new Date(y, m, d)` lies `d - 1` days after the first of month `m`, counted from January of the full year, with whole years carried. |
| DayView.NewDateCarriesDays | screens/Agenda.tsx:64 | Example of `NewDateCount`: day 32 of January 2024 is 1 February. |
| DayView.NewDateDayZero | screens/Agenda.tsx:64 | Example of `NewDateCount`: day 0 of March 2024 is 29 February. |
| DayView.NewDateCarriesMonths | screens/Agenda.tsx:64 | Examples of `NewDateCount`: month index 12 of 2024 is January 2025, and month index -1 of 2023 is December 2022. |
| DayView.NewDateOfValid | screens/Agenda.tsx:64 | A real date from year 100 on is rebuilt exactly from its year, month index and day. |
| DayView.NumberOfDigits | screens/Agenda.tsx:63 | `Number` of a digit run is its decimal value. |
| DayView.PickerParts | screens/Agenda.tsx:63 | There are always three parts, and a part missing from the split is NaN. |
| DayView.PickDate | screens/Agenda.tsx:61-67 | An empty value keeps the selection. Otherwise the result is invalid exactly when a part is NaN; else it is a real date at midnight. |
| DayView.IsoDate | screens/Agenda.tsx:94 | For years 0 to 9999 the text has the form `YYYY-MM-DD`. |
| DayView.PickerPartsOfDigits | screens/Agenda.tsx:63 | Three digit runs joined by `-` split back into their values. |
| DayView.PickDateOfIso | screens/Agenda.tsx:61-67 | Picking the picker's text for a day of years 0 to 9999 gives `new Date(year, month - 1, day)` at midnight. |
| DayView.PickerRoundTrip | screens/Agenda.tsx:61-67 | For years 100 to 9999, picking the value the picker shows for a day (its ISO text, line 94) selects that day at midnight. |
| DayView.TwoDigitYearShift | screens/Agenda.tsx:61-67 | Example of `FullYear` through `PickDateOfIso`: picking year 50 selects 1950. |
| DayView.Refresh | screens/Agenda.tsx:16-49 | A failed read keeps its part of the screen. An invalid date changes nothing. Otherwise the slots are the time-sorted slots of the weekday whose class exists, and the map keys are exactly the keys of the day's records. |
| DayView.RefreshPlanned | screens/Agenda.tsx:33-46 | After a refresh, when every record names a class (a non-null `turma_id`) and all ids have equal length, a slot is planned exactly when a record of its class at its time lies within the selected day. |
| Calendar.InDayRange | screens/Agenda.tsx:37-38 | For a well-formed instant, it is in the range exactly when it lies on that day no later than 23:59:59.000. |
| Calendar.NoonOf | screens/RegistroAula.tsx:117 | Noon of a day is in that day's range and in no other day's. |
| Calendar.DayOfWeek | screens/Agenda.tsx:18 | The weekday is between 0 and 6. |
| Calendar.DayOfWeekEpoch | screens/Agenda.tsx:18 | 1 January 1970 is day 0 of the count and a Thursday (weekday 4). |
| Calendar.DayOfWeekNext | screens/Agenda.tsx:18 | The day after a real date has the next weekday, Saturday wrapping to Sunday. |
| Calendar.NextDayCount | screens/Agenda.tsx:18 | The day after a real date is a real date whose day count is one more. |
| Calendar.MonthLength | screens/Agenda.tsx:64 | The first of the next month comes as many days after the first of a month as the month has. |
| Tables.MaybeSingle | screens/RegistroAula.tsx:75 | The result is a row exactly when one row matched, and then it is that row. |
| LessonRecord.InitialScreen | screens/RegistroAula.tsx:17-25 | The screen starts with no remembered record and no reference. The time is empty exactly when the address gives none. |
| LessonRecord.ClassSlots | screens/RegistroAula.tsx:51-57 | The slots are exactly the class's class slots, sorted by weekday and then time. |
| LessonRecord.FindExisting | screens/RegistroAula.tsx:68-75 | A result is a record of the table matching (class, time, day), and the only one. No result means no record matches, or several do. |
| LessonRecord.History | screens/RegistroAula.tsx:93-98 | At most one row, empty exactly when the class has no record. The row is a record of the class that sorts first under the descending order on `data`, which puts a null `data` first. |
| LessonRecord.HistoryIsLatest | screens/RegistroAula.tsx:93-98 | When the class has a record with a timestamp, the reference is never older than it. |
| LessonRecord.Reconcile | screens/RegistroAula.tsx:30-34 | Without a class id nothing changes. |
| LessonRecord.ReconcileLoads | screens/RegistroAula.tsx:40-60 | The header takes the name and subject when exactly one class has the id; otherwise it keeps its value. The slot list is exactly the class's class slots, or the old list when the read fails. |
| LessonRecord.ReconcileDefaultsHorario | screens/RegistroAula.tsx:59-64 | The time takes the first slot's time only when it was empty and a slot exists; otherwise it is unchanged. |
| LessonRecord.ReconcileLooksUp | screens/RegistroAula.tsx:66-89 | The lookup runs only with a date and a non-empty time (the time the run started with). A unique match is loaded, with null texts shown as empty, and its id is remembered. Otherwise the id is forgotten and the three texts are cleared, whatever they held. Without a lookup both are unchanged. |
| LessonRecord.ReconcileHistory | screens/RegistroAula.tsx:91-103 | The reference is fetched only when the previous render remembered no record. Then it becomes the class's latest record, if there is one; otherwise it is unchanged. |
| LessonRecord.StaleHistoryGate | screens/RegistroAula.tsx:82-103 | A run that forgets a remembered record does not refresh the reference: it keeps the reference of an earlier run, and the card shows exactly when there is one. |
| LessonRecord.ReconcileKeepsReference | screens/RegistroAula.tsx:17-103 | A remembered record implies a known reference on the initial screen and after every run whose history read succeeds. |
| LessonRecord.StaleGateShowsEarlierReference | screens/RegistroAula.tsx:82-103 | So, on a screen reached without failed history reads, the stale gate shows the card with the earlier run's reference. |
| LessonRecord.RerunShowsReference | screens/RegistroAula.tsx:30-103 | After such a run, the run that a new time `h` triggers reads the history again. The reference becomes the class's latest record, and the card shows unless the lookup for `h` loads a record with an id. |
| LessonRecord.IsFuture | screens/RegistroAula.tsx:27-28 | True exactly when a date is selected and it is a later calendar day than today. |
| LessonRecord.RecordDataOf | screens/RegistroAula.tsx:111-118 | With a date, the saved timestamp lies in that day's range and no other. Without a date it is the current moment. |
| LessonRecord.UpdateRecords | screens/RegistroAula.tsx:122-125 | Rows with the id take the new data and keep their id; every other row is unchanged. |
| LessonRecord.Save | screens/RegistroAula.tsx:108-142 | The save reports success exactly when the write succeeds; a failed write changes nothing. With a remembered id, that row is updated and no row is added. Without one, exactly one record is appended. The other tables are untouched. |
| LessonRecord.SaveThenReconcile | screens/RegistroAula.tsx:67-130 | Saving and then reopening the same class, date and time finds the saved record and shows its texts, in both update and insert mode. |
| Text.Split | screens/NovaTurma.tsx:62 | There is at least one piece, and the pieces joined with the separator give back the text. Each cut is at the leftmost occurrence of the separator: there is one piece exactly when the text has no separator, and otherwise the first piece ends where the first separator starts. |
| Text.SplitUnique | screens/NovaTurma.tsx:62 | Pieces that join to the text and are cut at leftmost occurrences are the split. |
| Text.SplitCharacterized | screens/NovaTurma.tsx:62 | A list of pieces is the split of a text exactly when it joins to the text with leftmost cuts. |
| Text.LeftmostPiecesFree | screens/NovaTurma.tsx:62 | No piece of the split contains the separator. |
| Text.Includes | screens/Turmas.tsx:93-94 | True exactly when the needle occurs at some index. |
| Text.Trim | screens/NovaTurma.tsx:148 | Trimming gives empty text exactly when the text is all white space. |
| Seqs.Dedupe | screens/Turmas.tsx:61 | The result has no duplicates and the same members as the input. |
| Seqs.Filter | screens/Turmas.tsx:92 | The result is an order-preserving sublist holding exactly the input's elements that satisfy the predicate. |
| Seqs.FilterCounts | screens/Turmas.tsx:92 | Each element occurs in the result as often as in the input when it satisfies the predicate, and not at all otherwise. |

## Left out

- Networking and the database are not modelled. The remote calls are the filters and sorts above, and their failures are sets of failing steps. Row-level security, authentication and the generated ids of inserted rows (passed in as `freshId`) are not modelled.
- Interface state is not modelled: React scheduling, loading flags, `alert`, `setTimeout`, navigation, `console.error`, JSX rendering and chip label text. The `Submit` and `ConfirmDelete` results say only whether the screen navigated or alerted.
- Effect re-runs are not modelled. The lesson screen's effect re-runs when `horario` changes. The model gives single runs (`Reconcile`) and states what the run a new time triggers does (`RerunShowsReference`), but no scheduler.
- Time zones and the local-to-UTC shift of `toISOString` are not modelled. A `Date` is a calendar day plus milliseconds in that day. The `Z` on the saved timestamp and the 23:59:59.001–.999 gap in the day range are covered only as far as `InDayRange` states them.
- DayView.NumberOf: only blank text and digit runs get a value. Signs, decimals, exponents and hex forms of `Number` are treated as NaN, because a date input never produces them.
- DayView.IsoDate: years outside −999999..999999 (beyond JavaScript's time-value range) are excluded by its precondition. TimeClip's limit of ±8.64e15 ms is not modelled.
- DayView.Refresh: an invalid date leaves the screen unchanged. In the source the query would be sent with a NaN weekday, and `toISOString` would throw.
- ScheduleEditor.LoadSchedules: `agenda.day_of_week` is assumed to hold an integer. The fallback `?? 1` (`screens/NovaTurma.tsx:64`) for a null value is not modelled. The agenda row type in `types/supabase.ts:12-22` does not list the column, so its nullability is not known from the source.
- `parseInt` of `students_count` is not modelled; the form holds an integer.
- Unicode case mapping is not modelled. `toLowerCase` is modelled for ASCII letters only; other characters are kept.
- `String.prototype.trim` removes the ASCII white space characters and the common Unicode ones (no-break space, line and paragraph separators, BOM). The other Unicode space separators are not included.
- LessonRecord.Reconcile: its own contract states only the no-class case. The loading, default time, lookup and history steps are stated by `ReconcileLoads`, `ReconcileDefaultsHorario`, `ReconcileLooksUp` and `ReconcileHistory`.
- LessonRecord.ShowsReferenceCard: the card's condition is a predicate used by the lemmas, not a member with its own contract.
- `selectedDate` on the lesson screen is `Option<Date>`: address text that is not a date is not modelled.
- The order of equal keys in a database sort is modelled as table order (a stable sort). PostgreSQL does not promise this.
- ScheduleEditor.FetchTurma, DayView.DayRecords: these two reads have no `.order(...)` (`screens/NovaTurma.tsx:48-51`, `screens/Agenda.tsx:34-38`), and the model assumes they return rows in table order. PostgreSQL promises no order there. Under that assumption `LoadSchedules` keeps row order, `SavedSchedulesReload` and `SubmitThenFetch` give back the saved slots in their original order, and `LastWins` and `PlannedMap` keep the record that comes last in the table for a shared key. The model states nothing about another row order.
- The foreign keys from `registros_aula.turma_id` and `agenda.turma_id` to `turmas.id` are assumed to have the default NO ACTION delete rule. The first is declared in `types/supabase.ts:76-84`; the second is implied by the `turmas!inner` embed at `screens/Agenda.tsx:22`. A class delete is refused while any record or slot still names the class, and the other steps fail or succeed independently. Inserts are not checked against the foreign keys.
- Tables.NameLeq and Text.StrLeq compare names code point by code point, as the "C" collation does. The source sets no collation, and under a language collation the name order of `FetchData` differs (for example "banana" before "Cherry").
- DayView.CarryDays, DayView.NewDate: their own contracts give the exact date only for in-range arguments. The day count for out-of-range ones is stated by `CarryDaysCount` and `NewDateCount`.
- Calendar.DayOfWeek: its own contract gives only the range. Which weekday a date has is stated by `DayOfWeekEpoch` and `DayOfWeekNext`.
- Seqs.Filter: its own contract gives membership and order. Multiplicities are stated by `FilterCounts`.
- `screens/Dashboard.tsx`, `screens/Historico.tsx`, `App.tsx`, `components/NavBar.tsx`, `constants.tsx` and the type files are not part of this model. They only display query results or route.

=== FILE: calendar.dfy ===
/** Calendar dates and instants as the screens compare them: a date is a
    (year, month, day) triple with the month counted from 1 as in `YYYY-MM-DD`
    text, and an instant is a date plus the milliseconds elapsed in that day.
    All instants are read in one clock; time zones are not modelled. */
module Calendar {

  datatype Date = Date(year: int, month: int, day: int)

  datatype Instant = Instant(date: Date, millis: int)

  const MillisPerDay: int := 86_400_000
  /** `T12:00:00`, the time of day lesson records are saved at. */
  const NoonMillis: int := 43_200_000
  /** `T23:59:59`, the inclusive upper bound of the day queries. */
  const LastSecondMillis: int := 86_399_000

  predicate WellFormed(t: Instant) {
    0 <= t.millis < MillisPerDay
  }

  /** Strict chronological order of dates. */
  predicate DateBefore(a: Date, b: Date) {
    || a.year < b.year
    || (a.year == b.year && a.month < b.month)
    || (a.year == b.year && a.month == b.month && a.day < b.day)
  }

  /** Strict chronological order of instants. */
  predicate Before(s: Instant, t: Instant) {
    DateBefore(s.date, t.date) || (s.date == t.date && s.millis < t.millis)
  }

  function DayStart(d: Date): Instant {
    Instant(d, 0)
  }

  function DayEnd(d: Date): Instant {
    Instant(d, LastSecondMillis)
  }

  /** The filter `data >= dT00:00:00 and data <= dT23:59:59` the screens put on
      lesson-record timestamps. It admits exactly the instants of day `d` up to
      and including 23:59:59.000; the rest of that last second falls outside. */
  function InDayRange(t: Instant, d: Date): (b: bool)
    ensures WellFormed(t) ==> (b <==> t.date == d && t.millis <= LastSecondMillis)
  {
    !Before(t, DayStart(d)) && !Before(DayEnd(d), t)
  }

  /** The timestamp a lesson record for day `d` is saved with: noon of `d`,
      which the day filter for `d` admits and the filter of every other day rejects. */
  function NoonOf(d: Date): (t: Instant)
    ensures WellFormed(t) && t.date == d
    ensures forall e :: InDayRange(t, e) <==> e == d
  {
    Instant(d, NoonMillis)
  }

  predicate IsLeapYear(y: int) {
    y % 4 == 0 && (y % 100 != 0 || y % 400 == 0)
  }

  function DaysInMonth(y: int, m: int): (n: int)
    ensures 28 <= n <= 31
  {
    if m == 2 then (if IsLeapYear(y) then 29 else 28)
    else if m == 4 || m == 6 || m == 9 || m == 11 then 30
    else 31
  }

  /** A real calendar day. */
  predicate ValidDate(d: Date) {
    1 <= d.month <= 12 && 1 <= d.day <= DaysInMonth(d.year, d.month)
  }

  /** Days from 1970-01-01 to 1 March of year `y`, counting years from March
      so that the leap day ends the counted year (`/` rounds down here). */
  function MarchStart(y: int): int {
    365 * y + y / 4 - y / 100 + y / 400 - 719468
  }

  /** Days from 1 March to the first of the month `mp` months later (March
      is 0, February 11): the values of `(153 * mp + 2) / 5`. */
  function MarchOffset(mp: int): int {
    if mp <= 0 then 0 else if mp == 1 then 31 else if mp == 2 then 61
    else if mp == 3 then 92 else if mp == 4 then 122 else if mp == 5 then 153
    else if mp == 6 then 184 else if mp == 7 then 214 else if mp == 8 then 245
    else if mp == 9 then 275 else if mp == 10 then 306 else 337
  }

  /** Days from 1970-01-01 to `d` in the proleptic Gregorian calendar; a day
      of the month out of range counts on from the month's first day. */
  function DaysFromCivil(d: Date): int {
    var y := if d.month <= 2 then d.year - 1 else d.year;
    MarchStart(y) + MarchOffset((d.month + 9) % 12) + d.day - 1
  }

  lemma FloorStep4(y: int)
    ensures y / 4 - (y - 1) / 4 == if y % 4 == 0 then 1 else 0
  {
  }

  lemma FloorStep100(y: int)
    ensures y / 100 - (y - 1) / 100 == if y % 100 == 0 then 1 else 0
  {
  }

  lemma FloorStep400(y: int)
    ensures y / 400 - (y - 1) / 400 == if y % 400 == 0 then 1 else 0
  {
  }

  /** The March-based year that starts in year `y` is one day longer exactly
      when February of `y` has a leap day. */
  lemma MarchYearLength(y: int)
    ensures MarchStart(y) - MarchStart(y - 1) == if IsLeapYear(y) then 366 else 365
  {
    FloorStep4(y);
    FloorStep100(y);
    FloorStep400(y);
    if y % 100 == 0 {
      assert y % 4 == 0;
    }
    if y % 400 == 0 {
      assert y % 100 == 0;
    }
  }

  /** The first day of the month after month `m` of year `y`. */
  function NextMonthStart(y: int, m: int): Date {
    if m == 12 then Date(y + 1, 1, 1) else Date(y, m + 1, 1)
  }

  /** Counting from the first of a month, the next month starts as many days
      later as the month has. */
  lemma MonthLength(y: int, m: int)
    requires 1 <= m <= 12
    ensures DaysFromCivil(NextMonthStart(y, m)) == DaysFromCivil(Date(y, m, 1)) + DaysInMonth(y, m)
  {
    if m == 2 {
      FebruaryLength(y);
    } else if m == 1 || m == 12 {
      TurnOfYearLength(y, m);
    } else {
      MidYearLength(y, m);
    }
  }

  lemma FebruaryLength(y: int)
    ensures DaysFromCivil(Date(y, 3, 1)) == DaysFromCivil(Date(y, 2, 1)) + DaysInMonth(y, 2)
  {
    MarchYearLength(y);
    assert DaysFromCivil(Date(y, 2, 1)) == MarchStart(y - 1) + 337;
    assert DaysFromCivil(Date(y, 3, 1)) == MarchStart(y);
  }

  lemma TurnOfYearLength(y: int, m: int)
    requires m == 1 || m == 12
    ensures DaysFromCivil(NextMonthStart(y, m)) == DaysFromCivil(Date(y, m, 1)) + DaysInMonth(y, m)
  {
    if m == 1 {
      assert DaysFromCivil(Date(y, 1, 1)) == MarchStart(y - 1) + 306;
      assert DaysFromCivil(Date(y, 2, 1)) == MarchStart(y - 1) + 337;
    } else {
      assert DaysFromCivil(Date(y, 12, 1)) == MarchStart(y) + 275;
      assert DaysFromCivil(Date(y + 1, 1, 1)) == MarchStart(y) + 306;
    }
  }

  lemma MidYearLength(y: int, m: int)
    requires 3 <= m <= 11
    ensures DaysFromCivil(Date(y, m + 1, 1)) == DaysFromCivil(Date(y, m, 1)) + DaysInMonth(y, m)
  {
    assert (m + 9) % 12 == m - 3 && (m + 10) % 12 == m - 2;
    MarchOffsetStep(y, m);
  }

  /** From March to November, consecutive table entries differ by the month's length. */
  lemma MarchOffsetStep(y: int, m: int)
    requires 3 <= m <= 11
    ensures MarchOffset(m - 2) - MarchOffset(m - 3) == DaysInMonth(y, m)
  {
  }

  /** The calendar day after `d`. */
  function NextDay(d: Date): Date {
    if d.day < DaysInMonth(d.year, d.month) then d.(day := d.day + 1)
    else NextMonthStart(d.year, d.month)
  }

  /** The day after a real date is a real date, one day later in the count. */
  lemma NextDayCount(d: Date)
    requires ValidDate(d)
    ensures ValidDate(NextDay(d))
    ensures DaysFromCivil(NextDay(d)) == DaysFromCivil(d) + 1
  {
    DayOffset(d);
    if d.day >= DaysInMonth(d.year, d.month) {
      MonthLength(d.year, d.month);
      assert NextDay(d) == NextMonthStart(d.year, d.month);
    } else {
      DayOffset(NextDay(d));
    }
  }

  /** Within a month, the count grows by one per day from the first. */
  lemma DayOffset(d: Date)
    ensures DaysFromCivil(d) == DaysFromCivil(Date(d.year, d.month, 1)) + d.day - 1
  {
  }

  /** `Date.prototype.getDay`: 0 = Sunday ... 6 = Saturday (1970-01-01 was a Thursday). */
  function DayOfWeek(d: Date): (w: int)
    ensures 0 <= w < 7
  {
    (DaysFromCivil(d) + 4) % 7
  }

  /** 1 January 1970, day 0 of the count, was a Thursday. */
  lemma DayOfWeekEpoch()
    ensures DaysFromCivil(Date(1970, 1, 1)) == 0
    ensures DayOfWeek(Date(1970, 1, 1)) == 4
  {
    assert MarchStart(1969) == -306;
  }

  /** The day after a real date falls on the next weekday. */
  lemma DayOfWeekNext(d: Date)
    requires ValidDate(d)
    ensures DayOfWeek(NextDay(d)) == (DayOfWeek(d) + 1) % 7
  {
    NextDayCount(d);
    WeekdayStep(DaysFromCivil(d) + 4);
  }

  lemma WeekdayStep(n: int)
    ensures (n + 1) % 7 == (n % 7 + 1) % 7
  {
  }
}

=== FILE: class_list.dfy ===
/** The class list screen (`screens/Turmas.tsx`): classes in name order, their
    weekly slots grouped by class, the classes meeting today, the search box
    with the `Todas` / `Hoje` chips, and deleting a class together with its
    slots and lesson records. */
module ClassList {
  import opened Wrappers
  import opened Text
  import opened Seqs
  import opened Tables

  // ---------------------------------------------------------------------------
  // Grouping the slots by class

  /** `grouped` as the `forEach` over the slot rows builds it: each slot with a
      truthy class id is pushed onto its class's list, created on first use. */
  function Group(rows: seq<AgendaRow>): (g: map<string, seq<AgendaRow>>)
    ensures forall id :: id in g ==> id != "" && g[id] != []
    decreases |rows|
  {
    if rows == [] then map[]
    else
      var g := Group(rows[..|rows| - 1]);
      var r := rows[|rows| - 1];
      if Truthy(r.turmaId) then
        var id := r.turmaId.value;
        g[id := (if id in g then g[id] else []) + [r]]
      else g
  }

  /** Every slot with a truthy class id lands in the group of its own class, in
      input order, and a class has a group exactly when it has a slot. */
  lemma {:induction false} GroupExact(rows: seq<AgendaRow>)
    ensures forall id :: id in Group(rows) <==> id != "" && HasSlot(rows, id)
    ensures forall id :: id in Group(rows) ==> Group(rows)[id] == Filter(rows, SlotOf(id))
    decreases |rows|
  {
    if rows != [] {
      var prefix := rows[..|rows| - 1];
      var r := rows[|rows| - 1];
      assert rows == prefix + [r];
      GroupExact(prefix);
      HasSlotSnoc(prefix, r);
      forall id | id in Group(rows)
        ensures Group(rows)[id] == Filter(rows, SlotOf(id))
      {
        GroupSnocEntry(prefix, r, id);
      }
    }
  }

  /** A slot of class `id` is among the rows plus `r` when it is among the
      rows or is `r`. */
  lemma HasSlotSnoc(prefix: seq<AgendaRow>, r: AgendaRow)
    ensures forall id :: HasSlot(prefix + [r], id) <==> HasSlot(prefix, id) || r.turmaId == Some(id)
  {
    forall id
      ensures HasSlot(prefix + [r], id) <==> HasSlot(prefix, id) || r.turmaId == Some(id)
    {
      if HasSlot(prefix + [r], id) {
        var x :| x in prefix + [r] && x.turmaId == Some(id);
        assert x in prefix || x == r;
      }
      if r.turmaId == Some(id) {
        assert r in prefix + [r];
      }
      if HasSlot(prefix, id) {
        var x :| x in prefix && x.turmaId == Some(id);
        assert x in prefix + [r];
      }
    }
  }

  /** Appending one row keeps every group equal to the slots of its class,
      once that holds for the rows before it. */
  lemma GroupSnocEntry(prefix: seq<AgendaRow>, r: AgendaRow, id: string)
    requires id in Group(prefix) <==> id != "" && HasSlot(prefix, id)
    requires id in Group(prefix) ==> Group(prefix)[id] == Filter(prefix, SlotOf(id))
    requires id in Group(prefix + [r])
    ensures Group(prefix + [r])[id] == Filter(prefix + [r], SlotOf(id))
  {
    var rows := prefix + [r];
    assert rows[..|rows| - 1] == prefix;
    FilterAppend(prefix, [r], SlotOf(id));
    var tail := Filter([r], SlotOf(id));
    assert tail == if r.turmaId == Some(id) then [r] else [];
    if id in Group(prefix) {
      assert Group(rows)[id] == Group(prefix)[id] + tail;
    } else {
      FilterNone(prefix, SlotOf(id));
      assert Group(rows)[id] == [r];
    }
  }

  /** A group keeps the order of the rows it was built from. */
  lemma GroupSorted(rows: seq<AgendaRow>, leq: (AgendaRow, AgendaRow) -> bool)
    requires SortedBy(rows, leq)
    ensures forall id :: id in Group(rows) ==> SortedBy(Group(rows)[id], leq)
  {
    GroupExact(rows);
    forall id | id in Group(rows)
      ensures SortedBy(Group(rows)[id], leq)
    {
      FilterSorted(rows, SlotOf(id), leq);
    }
  }

  /** A slot whose class id is null or empty is in no group. */
  lemma FalsyIdUngrouped(rows: seq<AgendaRow>, r: AgendaRow)
    requires !Truthy(r.turmaId)
    ensures forall id :: id in Group(rows) ==> r !in Group(rows)[id]
  {
    GroupExact(rows);
  }

  // ---------------------------------------------------------------------------
  // Classes meeting today

  /** The slot belongs to the class `id` and meets on weekday `today`. */
  predicate MeetsOn(r: AgendaRow, id: string, today: int) {
    r.turmaId == Some(id) && r.dayOfWeek == today
  }

  /** `todayIds` before de-duplication: one entry per slot on `today` with a
      truthy class id, in row order. */
  function TodayPushes(rows: seq<AgendaRow>, today: int): (ids: seq<string>)
    ensures forall id :: id in ids <==> id != "" && exists r :: r in rows && MeetsOn(r, id, today)
  {
    if rows == [] then []
    else
      var rest := TodayPushes(rows[1..], today);
      var r := rows[0];
      assert rows == [r] + rows[1..];
      assert forall id ::
          (exists x :: x in rows && MeetsOn(x, id, today))
          <==> MeetsOn(r, id, today) || exists x :: x in rows[1..] && MeetsOn(x, id, today);
      if Truthy(r.turmaId) && r.dayOfWeek == today then [r.turmaId.value] + rest else rest
  }

  /** `todayTurmaIds`: the distinct classes with a slot on weekday `today`. */
  function TodayIds(rows: seq<AgendaRow>, today: int): (ids: seq<string>)
    ensures NoDuplicates(ids)
    ensures forall id :: id in ids <==> id != "" && exists r :: r in rows && MeetsOn(r, id, today)
  {
    Dedupe(TodayPushes(rows, today))
  }

  // ---------------------------------------------------------------------------
  // The slot chips on a class card

  /** What a card's slot area shows: chips for the looked-up slots, or the
      `Sem horários` note when the lookup finds no entry. */
  datatype ChipArea = Chips(slots: seq<AgendaRow>) | NoSchedules

  function ChipsFor(groups: map<string, seq<AgendaRow>>, id: string): ChipArea {
    if id in groups then Chips(groups[id]) else NoSchedules
  }

  /** After grouping, a class gets chips for exactly its own slots, never an
      empty chip list, and `Sem horários` exactly when it has no slot. */
  lemma ChipsOfGroup(rows: seq<AgendaRow>, id: string)
    ensures ChipsFor(Group(rows), id).NoSchedules? <==> id == "" || !HasSlot(rows, id)
    ensures ChipsFor(Group(rows), id).Chips? ==>
      ChipsFor(Group(rows), id).slots == Filter(rows, SlotOf(id)) && ChipsFor(Group(rows), id).slots != []
  {
    GroupExact(rows);
  }

  // ---------------------------------------------------------------------------
  // Search and the chips above the list

  const TodayFilter: string := "Hoje"

  /** The class's name or subject contains the query, ignoring letter case. */
  predicate MatchesSearch(t: Turma, query: string) {
    Includes(Lower(t.name), Lower(query)) || Includes(Lower(t.subject), Lower(query))
  }

  /** The empty query matches every class. */
  lemma EmptyQueryMatches(t: Turma)
    ensures MatchesSearch(t, "")
  {
    assert OccursAt(Lower(t.name), Lower(""), 0);
  }

  /** Searching for a class's own name finds it, whatever the letter case. */
  lemma SearchFindsOwnName(t: Turma)
    ensures MatchesSearch(t, t.name)
  {
    assert OccursAt(Lower(t.name), Lower(t.name), 0);
  }

  function IsShown(activeFilter: string, query: string, todayIds: seq<string>): Turma -> bool {
    (t: Turma) => MatchesSearch(t, query) && (activeFilter == TodayFilter ==> t.id in todayIds)
  }

  function InToday(todayIds: seq<string>): Turma -> bool {
    (t: Turma) => t.id in todayIds
  }

  /** `filteredClasses`: an order-preserving selection of the classes. */
  function FilteredClasses(classes: seq<Turma>, activeFilter: string, query: string, todayIds: seq<string>)
    : (r: seq<Turma>)
    ensures IsSublist(r, classes)
    ensures forall t :: t in r <==>
      t in classes && MatchesSearch(t, query) && (activeFilter == TodayFilter ==> t.id in todayIds)
  {
    Filter(classes, IsShown(activeFilter, query, todayIds))
  }

  /** The `Hoje` list is the list under any other chip, restricted to the
      classes meeting today. */
  lemma TodayNarrowsAll(classes: seq<Turma>, other: string, query: string, todayIds: seq<string>)
    requires other != TodayFilter
    ensures FilteredClasses(classes, TodayFilter, query, todayIds)
      == Filter(FilteredClasses(classes, other, query, todayIds), InToday(todayIds))
  {
    FilterConj(classes, IsShown(other, query, todayIds), InToday(todayIds), IsShown(TodayFilter, query, todayIds));
  }

  /** With an empty search box and any chip but `Hoje`, every class is listed. */
  lemma EmptySearchListsAll(classes: seq<Turma>, activeFilter: string, todayIds: seq<string>)
    requires activeFilter != TodayFilter
    ensures FilteredClasses(classes, activeFilter, "", todayIds) == classes
  {
    forall t | t in classes
      ensures IsShown(activeFilter, "", todayIds)(t)
    {
      EmptyQueryMatches(t);
    }
    FilterAll(classes, IsShown(activeFilter, "", todayIds));
  }

  // ---------------------------------------------------------------------------
  // Loading and deleting

  /** The screen's state: the class list, the grouped slots, today's classes
      and the class whose delete confirmation is open. */
  datatype Screen = Screen(
    classes: seq<Turma>,
    allSchedules: map<string, seq<AgendaRow>>,
    todayIds: seq<string>,
    deleteTarget: Option<string>)

  const InitialScreen: Screen := Screen([], map[], [], None)

  /** The two reads `fetchData` issues; a failing one answers with an error. */
  datatype ListRead = ClassesRead | SlotsRead

  /** The slot rows the agenda query returns: class slots, by weekday then time. */
  function ClassSlotRows(agenda: seq<AgendaRow>): (rows: seq<AgendaRow>)
    ensures SortedBy(rows, DayTimeLeq)
    ensures multiset(rows) == multiset(Filter(agenda, IsClassSlot))
    ensures forall r :: r in rows <==> r in agenda && IsClassSlot(r)
  {
    var rows := SortBy(Filter(agenda, IsClassSlot), DayTimeLeq);
    DayTimeLeqTotalPreorder();
    SortBySorted(Filter(agenda, IsClassSlot), DayTimeLeq);
    SortByMembers(Filter(agenda, IsClassSlot), DayTimeLeq);
    rows
  }

  /** `fetchData` on weekday `today`: a failed class read keeps the list on
      screen; a failed slot read keeps the groups and today's classes. */
  function FetchData(s: Screen, db: Db, today: int, fails: set<ListRead>): (r: Screen)
    ensures ClassesRead in fails ==> r.classes == s.classes
    ensures ClassesRead !in fails ==>
      SortedBy(r.classes, NameLeq) && multiset(r.classes) == multiset(db.turmas)
    ensures SlotsRead in fails ==> r.allSchedules == s.allSchedules && r.todayIds == s.todayIds
    ensures SlotsRead !in fails ==>
      forall id :: id in r.allSchedules ==> SortedBy(r.allSchedules[id], DayTimeLeq)
    ensures SlotsRead !in fails ==> NoDuplicates(r.todayIds)
    ensures r.deleteTarget == s.deleteTarget
  {
    NameLeqTotalPreorder();
    SortBySorted(db.turmas, NameLeq);
    var classes := if ClassesRead in fails then s.classes else SortBy(db.turmas, NameLeq);
    if SlotsRead in fails then s.(classes := classes)
    else
      var rows := ClassSlotRows(db.agenda);
      GroupSorted(rows, DayTimeLeq);
      Screen(classes, Group(rows), TodayIds(rows, today), s.deleteTarget)
  }

  /** After a successful load each class's group holds exactly its class slots,
      and today's classes are those with a class slot on `today`. */
  lemma FetchDataSlots(s: Screen, db: Db, today: int, fails: set<ListRead>)
    requires SlotsRead !in fails
    ensures var r := FetchData(s, db, today, fails);
      && (forall id :: id in r.allSchedules <==>
            id != "" && exists x :: x in db.agenda && IsClassSlot(x) && x.turmaId == Some(id))
      && (forall id, x :: id in r.allSchedules ==>
            (x in r.allSchedules[id] <==> x in db.agenda && IsClassSlot(x) && x.turmaId == Some(id)))
      && (forall id :: id in r.todayIds <==>
            id != "" && exists x :: x in db.agenda && IsClassSlot(x) && MeetsOn(x, id, today))
  {
    var rows := ClassSlotRows(db.agenda);
    GroupExact(rows);
    forall id
      ensures HasSlot(rows, id) <==> exists x :: x in db.agenda && IsClassSlot(x) && x.turmaId == Some(id)
    {
      if exists x :: x in db.agenda && IsClassSlot(x) && x.turmaId == Some(id) {
        var x :| x in db.agenda && IsClassSlot(x) && x.turmaId == Some(id);
        assert x in rows;
      }
    }
  }

  /** The three writes of `confirmDelete`, in the order they are issued. */
  datatype DeleteStep = RecordsDelete | SlotsDelete | ClassDelete

  /** The database and screen after a delete, and whether the error alert showed. */
  datatype DeleteResult = DeleteResult(db: Db, screen: Screen, alerted: bool)

  /** `confirmDelete`: removes the class's lesson records, then its slots, then
      the class. Only the class delete's error is looked at: when it fails the
      alert shows and the dialog stays open; otherwise the class leaves the
      local list and the dialog closes. The class delete fails when the write
      itself fails, and also when a lesson record or slot still refers to the
      class, since the database refuses to remove a referenced row. */
  function ConfirmDelete(s: Screen, db: Db, failing: set<DeleteStep>): (r: DeleteResult)
    ensures !Truthy(s.deleteTarget) ==> r == DeleteResult(db, s, false)
    ensures r.alerted <==>
      && Truthy(s.deleteTarget)
      && (|| ClassDelete in failing
          || (RecordsDelete in failing && HasRecord(db.registros, s.deleteTarget.value))
          || (SlotsDelete in failing && HasSlot(db.agenda, s.deleteTarget.value)))
    ensures r.alerted ==> r.screen == s && r.db.turmas == db.turmas
    ensures Truthy(s.deleteTarget) && !r.alerted ==>
      var id := s.deleteTarget.value;
      && r.screen.deleteTarget == None
      && IsSublist(r.screen.classes, s.classes)
      && (forall t :: t in r.screen.classes <==> t in s.classes && t.id != id)
      && (forall t :: t in r.db.turmas <==> t in db.turmas && t.id != id)
    ensures Truthy(s.deleteTarget) && SlotsDelete !in failing ==>
      forall x :: x in r.db.agenda <==> x in db.agenda && x.turmaId != s.deleteTarget
    ensures Truthy(s.deleteTarget) && RecordsDelete !in failing ==>
      forall x :: x in r.db.registros <==> x in db.registros && x.turmaId != s.deleteTarget
    ensures SlotsDelete in failing ==> r.db.agenda == db.agenda
    ensures RecordsDelete in failing ==> r.db.registros == db.registros
  {
    if !Truthy(s.deleteTarget) then DeleteResult(db, s, false)
    else
      var id := s.deleteTarget.value;
      var registros := if RecordsDelete in failing then db.registros else Filter(db.registros, NotRecordOf(id));
      var agenda := if SlotsDelete in failing then db.agenda else Filter(db.agenda, NotSlotOf(id));
      var refused := ClassDelete in failing || HasRecord(registros, id) || HasSlot(agenda, id);
      if refused then DeleteResult(Db(db.turmas, agenda, registros), s, true)
      else
        var turmas := Filter(db.turmas, NotTurmaWithId(id));
        DeleteResult(Db(turmas, agenda, registros),
                     s.(classes := Filter(s.classes, NotTurmaWithId(id)), deleteTarget := None), false)
  }

  /** A delete without failures leaves no class, slot or lesson record with the
      class's id, in the database or on screen, and no alert. */
  lemma DeleteLeavesNoTrace(s: Screen, db: Db)
    requires Truthy(s.deleteTarget)
    ensures var r := ConfirmDelete(s, db, {});
      var id := s.deleteTarget.value;
      && !r.alerted
      && Filter(r.db.turmas, TurmaWithId(id)) == []
      && Filter(r.db.agenda, SlotOf(id)) == []
      && Filter(r.db.registros, RecordOf(id)) == []
      && forall t :: t in r.screen.classes ==> t.id != id
  {
    var r := ConfirmDelete(s, db, {});
    var id := s.deleteTarget.value;
    FilterNone(r.db.turmas, TurmaWithId(id));
    FilterNone(r.db.agenda, SlotOf(id));
    FilterNone(r.db.registros, RecordOf(id));
  }

  /** A delete leaves every other class's slots exactly as they were, order included. */
  lemma DeleteKeepsOtherSlots(s: Screen, db: Db, failing: set<DeleteStep>, other: string)
    requires Truthy(s.deleteTarget) && other != s.deleteTarget.value
    ensures Filter(ConfirmDelete(s, db, failing).db.agenda, SlotOf(other)) == Filter(db.agenda, SlotOf(other))
  {
    if SlotsDelete !in failing {
      FilterConj(db.agenda, NotSlotOf(s.deleteTarget.value), SlotOf(other), SlotOf(other));
    }
  }

  /** Because only the last step's error is looked at, a failed lesson-record
      delete goes unnoticed until the class delete is refused for the records
      left behind: the alert shows and the class stays, but its slots are
      already gone. */
  lemma FailedRecordDeleteKeepsClass(s: Screen, db: Db, x: Registro)
    requires Truthy(s.deleteTarget) && x in db.registros && x.turmaId == s.deleteTarget
    ensures var r := ConfirmDelete(s, db, {RecordsDelete});
      && r.alerted
      && r.screen == s
      && r.db.turmas == db.turmas
      && x in r.db.registros
      && Filter(r.db.agenda, SlotOf(s.deleteTarget.value)) == []
  {
    var r := ConfirmDelete(s, db, {RecordsDelete});
    assert HasRecord(db.registros, s.deleteTarget.value);
    FilterNone(r.db.agenda, SlotOf(s.deleteTarget.value));
  }

  /** Whatever steps fail, a delete never leaves a lesson record or slot
      naming a class that is gone. This restates the assumed NO ACTION rule of
      the foreign keys, which `ConfirmDelete` builds in as the refusal of the
      class delete; it is not something the screen's code checks. */
  lemma DeleteNeverOrphans(s: Screen, db: Db, failing: set<DeleteStep>)
    requires NoOrphans(db)
    ensures NoOrphans(ConfirmDelete(s, db, failing).db)
  {
    var r := ConfirmDelete(s, db, failing);
    if Truthy(s.deleteTarget) && !r.alerted {
      var id := s.deleteTarget.value;
      forall v | v != id && HasClass(db.turmas, v)
        ensures HasClass(r.db.turmas, v)
      {
        var t :| t in db.turmas && t.id == v;
        assert t in r.db.turmas;
      }
      forall x | x in r.db.registros && x.turmaId.Some?
        ensures HasClass(r.db.turmas, x.turmaId.value)
      {
        assert x.turmaId.value != id;
      }
      forall x | x in r.db.agenda && x.turmaId.Some?
        ensures HasClass(r.db.turmas, x.turmaId.value)
      {
        assert x.turmaId.value != id;
      }
    }
  }
}

=== FILE: day_view.dfy ===
/** The day view (`screens/Agenda.tsx`): the slots of the selected weekday
    whose class still exists, the lesson records of the selected date keyed by
    `turma_id-horario`, the "planned" badge on a slot card, the `Hoje` heading
    test, and the date picker. */
module DayView {
  import opened Wrappers
  import opened Text
  import opened Seqs
  import opened Calendar
  import opened Tables

  // ---------------------------------------------------------------------------
  // Keys of the planned-lesson map

  /** A nullable column inside a template literal: null renders as `null`. */
  function Template(s: Option<string>): string {
    if s.None? then "null" else s.value
  }

  /** `${r.turma_id}-${r.horario}`, the key a lesson record is stored under. */
  function RecordKey(r: Registro): string {
    Template(r.turmaId) + "-" + Template(r.horario)
  }

  /** `${item.turma_id}-${item.time}`, the key a slot card looks up. */
  function SlotKey(x: AgendaRow): string {
    Template(x.turmaId) + "-" + x.time
  }

  /** `mapped` as the `forEach` over the day's records fills it: each record is
      stored under its key, overwriting any earlier one with the same key. */
  function PlannedMap(records: seq<Registro>): (m: map<string, Registro>)
    ensures forall k :: k in m <==> exists r :: r in records && RecordKey(r) == k
    ensures forall k :: k in m ==> m[k] in records && RecordKey(m[k]) == k
    decreases |records|
  {
    if records == [] then map[]
    else
      var prefix := records[..|records| - 1];
      var last := records[|records| - 1];
      assert records == prefix + [last];
      PlannedMap(prefix)[RecordKey(last) := last]
  }

  /** Of several records with one key, the map keeps the one that comes last. */
  lemma {:induction false} LastWins(records: seq<Registro>, i: int)
    requires 0 <= i < |records|
    requires forall j :: i < j < |records| ==> RecordKey(records[j]) != RecordKey(records[i])
    ensures PlannedMap(records)[RecordKey(records[i])] == records[i]
    decreases |records|
  {
    if i < |records| - 1 {
      var prefix := records[..|records| - 1];
      LastWins(prefix, i);
    }
  }

  /** A slot card shows the planned badge and content when its key is in the map. */
  predicate IsPlanned(m: map<string, Registro>, x: AgendaRow) {
    SlotKey(x) in m
  }

  /** Keys built from class ids of one length (the database's UUIDs) are
      unambiguous: equal keys mean equal ids and equal times. */
  lemma KeyInjective(a: string, h: string, b: string, k: string)
    requires |a| == |b|
    ensures a + "-" + h == b + "-" + k <==> a == b && h == k
  {
    if a + "-" + h == b + "-" + k {
      assert a == (a + "-" + h)[..|a|];
      assert b == (b + "-" + k)[..|b|];
      assert h == (a + "-" + h)[|a| + 1..];
      assert k == (b + "-" + k)[|b| + 1..];
    }
  }

  /** With class ids of one length, a slot is planned exactly when some record
      of that class carries the slot's time as its `horario` (a null `horario`
      counts as the text `null`). */
  lemma PlannedExactly(records: seq<Registro>, x: AgendaRow)
    requires x.turmaId.Some?
    requires forall r :: r in records ==> r.turmaId.Some? && |r.turmaId.value| == |x.turmaId.value|
    ensures IsPlanned(PlannedMap(records), x) <==>
      exists r :: r in records && r.turmaId == x.turmaId && Template(r.horario) == x.time
  {
    forall r | r in records
      ensures RecordKey(r) == SlotKey(x) <==> r.turmaId == x.turmaId && Template(r.horario) == x.time
    {
      KeyInjective(r.turmaId.value, Template(r.horario), x.turmaId.value, x.time);
    }
  }

  /** Class ids of different lengths can collide: a record of class `a-b` at
      `c` marks the slot of class `a` at `b-c` as planned. */
  lemma KeyCollision()
    ensures var rec := Registro("r", Some("a-b"), None, Some("c"), None, None, None);
      var slot := AgendaRow(Some("a"), "", "b-c", 0, None);
      IsPlanned(PlannedMap([rec]), slot) && rec.turmaId != slot.turmaId
  {
    var rec := Registro("r", Some("a-b"), None, Some("c"), None, None, None);
    assert RecordKey(rec) == "a-b-c";
    assert SlotKey(AgendaRow(Some("a"), "", "b-c", 0, None)) == "a-b-c";
  }

  // ---------------------------------------------------------------------------
  // The two queries

  /** The slot's class still exists, so the `turmas!inner` join keeps the slot. */
  predicate ClassExists(turmas: seq<Turma>, x: AgendaRow) {
    exists t :: t in turmas && x.turmaId == Some(t.id)
  }

  function OnDayWithClass(turmas: seq<Turma>, dayOfWeek: int): AgendaRow -> bool {
    (x: AgendaRow) => x.dayOfWeek == dayOfWeek && ClassExists(turmas, x)
  }

  /** The schedule query: slots of any kind on `dayOfWeek` whose class exists,
      ordered by time. */
  function DaySchedule(db: Db, dayOfWeek: int): (rows: seq<AgendaRow>)
    ensures SortedBy(rows, TimeLeq)
    ensures multiset(rows) == multiset(Filter(db.agenda, OnDayWithClass(db.turmas, dayOfWeek)))
    ensures forall x :: x in rows <==> x in db.agenda && x.dayOfWeek == dayOfWeek && ClassExists(db.turmas, x)
  {
    var matching := Filter(db.agenda, OnDayWithClass(db.turmas, dayOfWeek));
    TimeLeqTotalPreorder();
    SortBySorted(matching, TimeLeq);
    SortByMembers(matching, TimeLeq);
    SortBy(matching, TimeLeq)
  }

  function InDay(d: Date): Registro -> bool {
    (r: Registro) => r.data.Some? && InDayRange(r.data.value, d)
  }

  /** The records query: records whose timestamp lies between `dT00:00:00` and
      `dT23:59:59`; a null timestamp never compares. */
  function DayRecords(db: Db, d: Date): (rs: seq<Registro>)
    ensures IsSublist(rs, db.registros)
    ensures forall r :: r in rs <==> r in db.registros && r.data.Some? && InDayRange(r.data.value, d)
  {
    Filter(db.registros, InDay(d))
  }

  /** A record saved at noon of `d` is listed on day `d` and on no other day. */
  lemma NoonRecordListed(db: Db, r: Registro, d: Date, e: Date)
    requires r in db.registros && r.data == Some(NoonOf(d))
    ensures r in DayRecords(db, e) <==> e == d
  {
  }

  // ---------------------------------------------------------------------------
  // Dates on screen

  /** A JavaScript `Date`: an instant, or the invalid date NaN numbers produce. */
  datatype JsDate = At(t: Instant) | InvalidDate

  /** `isToday`: `getDate`, `getMonth` and `getFullYear` all agree with the
      clock's (`getMonth` counts from 0 on both sides, so comparing the 1-based
      months is the same test); an invalid date compares unequal. */
  function IsToday(date: JsDate, now: Instant): (b: bool)
    ensures b <==> date.At? && date.t.date == now.date
  {
    date.At?
    && date.t.date.day == now.date.day
    && date.t.date.month == now.date.month
    && date.t.date.year == now.date.year
  }

  /** `MakeDay`'s carrying of an out-of-range day of the month into the
      neighbouring months. */
  function CarryDays(y: int, m: int, d: int): (r: Date)
    requires 1 <= m <= 12
    ensures ValidDate(r)
    ensures 1 <= d <= DaysInMonth(y, m) ==> r == Date(y, m, d)
    decreases if d < 1 then 1 else 0, if d < 1 then 1 - d else d
  {
    if d < 1 then
      var py := if m == 1 then y - 1 else y;
      var pm := if m == 1 then 12 else m - 1;
      CarryDays(py, pm, d + DaysInMonth(py, pm))
    else if d > DaysInMonth(y, m) then
      var ny := if m == 12 then y + 1 else y;
      var nm := if m == 12 then 1 else m + 1;
      CarryDays(ny, nm, d - DaysInMonth(y, m))
    else Date(y, m, d)
  }

  /** The first of month `m` comes a whole previous month after the first of
      the previous month. */
  lemma PreviousMonthStart(y: int, m: int)
    requires 1 <= m <= 12
    ensures var py := if m == 1 then y - 1 else y;
            var pm := if m == 1 then 12 else m - 1;
            DaysFromCivil(Date(y, m, 1)) == DaysFromCivil(Date(py, pm, 1)) + DaysInMonth(py, pm)
  {
    var py := if m == 1 then y - 1 else y;
    var pm := if m == 1 then 12 else m - 1;
    MonthLength(py, pm);
    assert NextMonthStart(py, pm) == Date(y, m, 1);
  }

  /** The first of the following month comes month `m`'s length after the
      first of `m`. */
  lemma FollowingMonthStart(y: int, m: int)
    requires 1 <= m <= 12
    ensures var ny := if m == 12 then y + 1 else y;
            var nm := if m == 12 then 1 else m + 1;
            DaysFromCivil(Date(ny, nm, 1)) == DaysFromCivil(Date(y, m, 1)) + DaysInMonth(y, m)
  {
    MonthLength(y, m);
  }

  /** One backward carry keeps the day count once it holds for the
      previous month. */
  lemma CarryBackStep(y: int, m: int, d: int)
    requires 1 <= m <= 12 && d < 1
    requires var py := if m == 1 then y - 1 else y;
             var pm := if m == 1 then 12 else m - 1;
             var e := d + DaysInMonth(py, pm);
             DaysFromCivil(CarryDays(py, pm, e)) == DaysFromCivil(Date(py, pm, 1)) + e - 1
    ensures DaysFromCivil(CarryDays(y, m, d)) == DaysFromCivil(Date(y, m, 1)) + d - 1
  {
    PreviousMonthStart(y, m);
  }

  /** One forward carry keeps the day count once it holds for the
      following month. */
  lemma CarryForwardStep(y: int, m: int, d: int)
    requires 1 <= m <= 12 && d > DaysInMonth(y, m)
    requires var ny := if m == 12 then y + 1 else y;
             var nm := if m == 12 then 1 else m + 1;
             var e := d - DaysInMonth(y, m);
             DaysFromCivil(CarryDays(ny, nm, e)) == DaysFromCivil(Date(ny, nm, 1)) + e - 1
    ensures DaysFromCivil(CarryDays(y, m, d)) == DaysFromCivil(Date(y, m, 1)) + d - 1
  {
    FollowingMonthStart(y, m);
  }

  /** Carrying counts days: the result lies `d - 1` days after the first of
      month `m`, whichever way the carry went. */
  lemma {:induction false} CarryDaysCount(y: int, m: int, d: int)
    requires 1 <= m <= 12
    ensures DaysFromCivil(CarryDays(y, m, d)) == DaysFromCivil(Date(y, m, 1)) + d - 1
    decreases if d < 1 then 1 else 0, if d < 1 then 1 - d else d
  {
    if d < 1 {
      var py := if m == 1 then y - 1 else y;
      var pm := if m == 1 then 12 else m - 1;
      CarryDaysCount(py, pm, d + DaysInMonth(py, pm));
      CarryBackStep(y, m, d);
    } else if d > DaysInMonth(y, m) {
      var ny := if m == 12 then y + 1 else y;
      var nm := if m == 12 then 1 else m + 1;
      CarryDaysCount(ny, nm, d - DaysInMonth(y, m));
      CarryForwardStep(y, m, d);
    } else {
      DayOffset(Date(y, m, d));
    }
  }

  /** The year `new Date(year, ...)` uses: 0 to 99 mean 1900 to 1999. */
  function FullYear(year: int): (y: int)
    ensures !(0 <= year <= 99) ==> y == year
    ensures 0 <= year <= 99 ==> 1900 <= y <= 1999 && y % 100 == year
  {
    if 0 <= year <= 99 then 1900 + year else year
  }

  /** `new Date(year, monthIndex, day)` at local midnight: the month index
      counts from 0 and carries whole years (`/` and `%` by 12 round down, as
      the standard's floor does), then the day carries into months. */
  function NewDate(year: int, monthIndex: int, day: int): (r: Date)
    ensures ValidDate(r)
    ensures 0 <= monthIndex < 12 && 1 <= day <= DaysInMonth(FullYear(year), monthIndex + 1) ==>
      r == Date(FullYear(year), monthIndex + 1, day)
  {
    CarryDays(FullYear(year) + monthIndex / 12, monthIndex % 12 + 1, day)
  }

  /** The constructor's date lies `day - 1` days after the first of the month
      the month index lands on, once whole years are carried. */
  lemma NewDateCount(year: int, monthIndex: int, day: int)
    ensures DaysFromCivil(NewDate(year, monthIndex, day))
      == DaysFromCivil(Date(FullYear(year) + monthIndex / 12, monthIndex % 12 + 1, 1)) + day - 1
  {
    var y, m := FullYear(year) + monthIndex / 12, monthIndex % 12 + 1;
    assert NewDate(year, monthIndex, day) == CarryDays(y, m, day);
    CarryDaysCount(y, m, day);
  }

  /** Day 32 of January is 1 February. */
  lemma NewDateCarriesDays()
    ensures NewDate(2024, 0, 32) == Date(2024, 2, 1)
  {
    assert DaysInMonth(2024, 1) == 31;
    assert CarryDays(2024, 1, 32) == CarryDays(2024, 2, 1);
  }

  /** Day 0 is the last day of the month before: 29 February in a leap year. */
  lemma NewDateDayZero()
    ensures NewDate(2024, 2, 0) == Date(2024, 2, 29)
  {
    assert DaysInMonth(2024, 2) == 29;
    assert CarryDays(2024, 3, 0) == CarryDays(2024, 2, 29);
  }

  /** Month index 12 is January of the next year, and -1 December of the year before. */
  lemma NewDateCarriesMonths()
    ensures NewDate(2024, 12, 1) == Date(2025, 1, 1)
    ensures NewDate(2023, -1, 1) == Date(2022, 12, 1)
  {
    assert 12 / 12 == 1 && 12 % 12 == 0;
    assert -1 / 12 == -1 && -1 % 12 == 11;
  }

  /** `Number(s)` on the texts a date field splits into: blank text is 0, a run
      of decimal digits its value, anything else NaN (`None`). */
  function NumberOf(s: string): (n: Option<int>)
    ensures AllSpace(s) ==> n == Some(0)
    ensures n.Some? ==> n.value >= 0
  {
    var t := Trim(s);
    if t == "" then Some(0)
    else if AllDigits(t) then Some(Decimal(t))
    else None
  }

  lemma NumberOfDigits(s: string)
    requires s != [] && AllDigits(s)
    ensures NumberOf(s) == Some(Decimal(s))
  {
    TrimNoSpace(s);
  }

  /** `value.split('-').map(Number)` destructured into three numbers; a missing
      part is `undefined`, whose number is NaN. */
  function PickerParts(value: string): (parts: seq<Option<int>>)
    ensures |parts| == 3
    ensures forall k :: 0 <= k < 3 && k >= |Split(value, "-")| ==> parts[k] == None
  {
    PartNumbers(Split(value, "-"))
  }

  /** The numbers of the first three parts, `None` for a missing one. */
  function PartNumbers(p: seq<string>): seq<Option<int>> {
    [if 0 < |p| then NumberOf(p[0]) else None,
     if 1 < |p| then NumberOf(p[1]) else None,
     if 2 < |p| then NumberOf(p[2]) else None]
  }

  /** `handleDatePickerChange`: an empty value keeps the selection; otherwise
      the parts `Y-M-D` become `new Date(Y, M - 1, D)`, invalid when a part is NaN. */
  function PickDate(selected: JsDate, value: string): (r: JsDate)
    ensures value == "" ==> r == selected
    ensures value != "" && r.At? ==> ValidDate(r.t.date) && r.t.millis == 0
    ensures value != "" ==>
      var parts := PickerParts(value);
      (r == InvalidDate <==> parts[0].None? || parts[1].None? || parts[2].None?)
  {
    if value == "" then selected else DateOfParts(PickerParts(value))
  }

  /** `new Date(Y, M - 1, D)` on the three numbers, invalid when one is NaN. */
  function DateOfParts(parts: seq<Option<int>>): JsDate
    requires |parts| == 3
  {
    if parts[0].Some? && parts[1].Some? && parts[2].Some? then
      At(Instant(NewDate(parts[0].value, parts[1].value - 1, parts[2].value), 0))
    else InvalidDate
  }

  /** `toISOString().split('T')[0]` for a date at midnight: `YYYY-MM-DD`, with a
      signed six-digit year outside 0 to 9999. */
  function IsoDate(d: Date): (s: string)
    requires ValidDate(d) && -1_000_000 < d.year < 1_000_000
    ensures 0 <= d.year <= 9999 ==> |s| == 10 && s[4] == '-' && s[7] == '-'
  {
    var year :=
      if 0 <= d.year <= 9999 then Pad(d.year, 4)
      else if d.year < 0 then "-" + Pad(-d.year, 6)
      else "+" + Pad(d.year, 6);
    year + "-" + Pad(d.month, 2) + "-" + Pad(d.day, 2)
  }

  /** Three digit runs joined by `-` split back into their three numbers. */
  lemma PickerPartsOfDigits(y: string, m: string, dd: string)
    requires y != [] && m != [] && dd != []
    requires AllDigits(y) && AllDigits(m) && AllDigits(dd)
    ensures PickerParts(y + "-" + m + "-" + dd) == [Some(Decimal(y)), Some(Decimal(m)), Some(Decimal(dd))]
  {
    DigitsHaveNoDash(y);
    DigitsHaveNoDash(m);
    DigitsHaveNoDash(dd);
    SplitDashed(y, m, dd);
    PickerPartsOfThree(y + "-" + m + "-" + dd, y, m, dd);
    NumberOfDigits(y);
    NumberOfDigits(m);
    NumberOfDigits(dd);
  }

  lemma DigitsHaveNoDash(s: string)
    requires AllDigits(s)
    ensures '-' !in s
  {
    assert !IsDigit('-');
  }

  lemma PickerPartsOfThree(value: string, a: string, b: string, c: string)
    requires Split(value, "-") == [a, b, c]
    ensures PickerParts(value) == [NumberOf(a), NumberOf(b), NumberOf(c)]
  {
    PartNumbersOfThree(a, b, c);
  }

  lemma PartNumbersOfThree(a: string, b: string, c: string)
    ensures PartNumbers([a, b, c]) == [NumberOf(a), NumberOf(b), NumberOf(c)]
  {
    var p := [a, b, c];
    assert p[0] == a && p[1] == b && p[2] == c;
  }

  /** Three dash-free texts joined by `-` split back into those three. */
  lemma SplitDashed(y: string, m: string, dd: string)
    requires '-' !in y && '-' !in m && '-' !in dd
    ensures Split(y + "-" + m + "-" + dd, "-") == [y, m, dd]
  {
    SplitCons(y, "-", m + "-" + dd);
    assert y + "-" + m + "-" + dd == y + "-" + (m + "-" + dd);
    SplitCons(m, "-", dd);
    SplitWithout(dd, "-");
    assert [y] + ([m] + [dd]) == [y, m, dd];
  }

  /** The picker's value for the selected day, read back, selects that day
      again (years 100 to 9999; two-digit years would land in the 1900s). */
  lemma PickerRoundTrip(selected: JsDate, d: Date)
    requires ValidDate(d) && 100 <= d.year <= 9999
    ensures PickDate(selected, IsoDate(d)) == At(Instant(d, 0))
  {
    PickDateOfIso(selected, d);
    NewDateOfValid(d);
  }

  /** Picking the picker's text for a day of years 0 to 9999 calls the date
      constructor with that day's own year, month index and day. */
  lemma PickDateOfIso(selected: JsDate, d: Date)
    requires ValidDate(d) && 0 <= d.year <= 9999
    ensures PickDate(selected, IsoDate(d)) == At(Instant(NewDate(d.year, d.month - 1, d.day), 0))
  {
    var value := IsoDate(d);
    PickerPartsOfIso(d);
    PickDateOfText(selected, value);
    DateOfThreeNumbers(d.year, d.month, d.day);
  }

  /** A non-empty value goes through the three parts of its split. */
  lemma PickDateOfText(selected: JsDate, value: string)
    requires value != ""
    ensures PickDate(selected, value) == DateOfParts(PickerParts(value))
  {
  }

  lemma DateOfThreeNumbers(y: int, m: int, dd: int)
    ensures DateOfParts([Some(y), Some(m), Some(dd)]) == At(Instant(NewDate(y, m - 1, dd), 0))
  {
    var parts := [Some(y), Some(m), Some(dd)];
    assert parts[0] == Some(y) && parts[1] == Some(m) && parts[2] == Some(dd);
  }

  /** The picker's value for a day of years 0 to 9999 splits into its three numbers. */
  lemma PickerPartsOfIso(d: Date)
    requires ValidDate(d) && 0 <= d.year <= 9999
    ensures IsoDate(d) != ""
    ensures PickerParts(IsoDate(d)) == [Some(d.year), Some(d.month), Some(d.day)]
  {
    Pow10Small();
    IsoDateParts(d);
    PickerPartsOfDigits(Pad(d.year, 4), Pad(d.month, 2), Pad(d.day, 2));
  }

  lemma IsoDateParts(d: Date)
    requires ValidDate(d) && 0 <= d.year <= 9999
    ensures IsoDate(d) == Pad(d.year, 4) + "-" + Pad(d.month, 2) + "-" + Pad(d.day, 2)
  {
    Pow10Small();
  }

  /** A valid date from year 100 on is rebuilt by the constructor from its own parts. */
  lemma NewDateOfValid(d: Date)
    requires ValidDate(d) && d.year >= 100
    ensures NewDate(d.year, d.month - 1, d.day) == d
  {
    assert (d.month - 1) / 12 == 0 && (d.month - 1) % 12 == d.month - 1;
  }

  /** Picking today's own picker text (years 100 to 9999) selects a day the
      screen marks as today. */
  lemma PickTodayIsToday(selected: JsDate, now: Instant)
    requires ValidDate(now.date) && 100 <= now.date.year <= 9999
    ensures IsToday(PickDate(selected, IsoDate(now.date)), now)
  {
    PickerRoundTrip(selected, now.date);
  }

  /** Picking year 50 selects 1950: the constructor's two-digit year rule. */
  lemma TwoDigitYearShift()
    ensures PickDate(InvalidDate, IsoDate(Date(50, 3, 1))) == At(Instant(Date(1950, 3, 1), 0))
  {
    var d := Date(50, 3, 1);
    PickDateOfIso(InvalidDate, d);
    assert NewDate(50, 2, 1) == Date(1950, 3, 1);
  }

  // ---------------------------------------------------------------------------
  // The screen

  datatype DayScreen = DayScreen(selected: JsDate, schedule: seq<AgendaRow>, planned: map<string, Registro>)

  /** The two reads of `fetchSchedule`; a failing one answers with an error. */
  datatype DayRead = ScheduleRead | RecordsRead

  /** `fetchSchedule` for the selected date. A failed schedule read keeps the
      slots on screen; a failed records read keeps the map. An invalid date
      changes nothing: its weekday is NaN, which the schedule query rejects,
      and its ISO text cannot be formed. */
  function Refresh(s: DayScreen, db: Db, fails: set<DayRead>): (r: DayScreen)
    ensures r.selected == s.selected
    ensures s.selected.InvalidDate? ==> r == s
    ensures ScheduleRead in fails ==> r.schedule == s.schedule
    ensures RecordsRead in fails ==> r.planned == s.planned
    ensures s.selected.At? && ScheduleRead !in fails ==>
      SortedBy(r.schedule, TimeLeq)
      && forall x :: x in r.schedule <==>
        x in db.agenda && x.dayOfWeek == DayOfWeek(s.selected.t.date) && ClassExists(db.turmas, x)
    ensures s.selected.At? && RecordsRead !in fails ==>
      forall k :: k in r.planned <==>
        exists x :: x in db.registros && InDay(s.selected.t.date)(x) && RecordKey(x) == k
  {
    match s.selected
    case InvalidDate => s
    case At(t) =>
      var schedule := if ScheduleRead in fails then s.schedule else DaySchedule(db, DayOfWeek(t.date));
      var planned := if RecordsRead in fails then s.planned else PlannedMap(DayRecords(db, t.date));
      DayScreen(s.selected, schedule, planned)
  }

  /** After a refresh, with class ids of one length, a listed slot is planned
      exactly when a record of its class at its time lies within the selected day. */
  lemma RefreshPlanned(s: DayScreen, db: Db, fails: set<DayRead>, x: AgendaRow)
    requires s.selected.At? && RecordsRead !in fails
    requires x.turmaId.Some?
    requires forall r :: r in db.registros && r.turmaId.Some? ==> |r.turmaId.value| == |x.turmaId.value|
    requires forall r :: r in db.registros ==> r.turmaId.Some?
    ensures IsPlanned(Refresh(s, db, fails).planned, x) <==>
      exists r :: r in db.registros && r.data.Some? && InDayRange(r.data.value, s.selected.t.date)
        && r.turmaId == x.turmaId && Template(r.horario) == x.time
  {
    var records := DayRecords(db, s.selected.t.date);
    PlannedExactly(records, x);
  }
}

=== FILE: lesson_record.dfy ===
/** The lesson record screen (`screens/RegistroAula.tsx`), opened for a class,
    optionally a date and optionally a time: it loads the class, its weekly
    slots and the record saved for that (class, date, time), if any, plus the
    class's latest record as a reference, and saves the form as an update of
    the loaded record or as a new one. */
module LessonRecord {
  import opened Wrappers
  import opened Seqs
  import opened Calendar
  import opened Tables

  datatype ClassInfo = ClassInfo(name: string, subject: string)

  /** The screen's state between renders. */
  datatype Screen = Screen(
    classInfo: ClassInfo,
    schedules: seq<AgendaRow>,
    lastRecord: Option<Registro>,
    existingRecordId: Option<string>,
    horario: string,
    conteudo: string,
    exercicios: string,
    proximosPassos: string)

  /** The state on opening: the time from the address, or empty. */
  function InitialScreen(selectedTime: Option<string>): (s: Screen)
    ensures s.existingRecordId.None? && s.lastRecord.None?
    ensures s.horario == "" <==> selectedTime.None? || selectedTime.value == ""
  {
    Screen(ClassInfo("", ""), [], None, None, selectedTime.GetOr(""), "", "", "")
  }

  /** The four reads of `fetchClassAndSchedules`; a failing one yields null data. */
  datatype Read = TurmaRead | AgendaRead | ExistingRead | HistoryRead

  // ---------------------------------------------------------------------------
  // The queries

  function OwnClassSlot(turmaId: string): AgendaRow -> bool {
    (x: AgendaRow) => x.turmaId == Some(turmaId) && IsClassSlot(x)
  }

  /** The class's weekly class slots, by weekday then time. */
  function ClassSlots(agenda: seq<AgendaRow>, turmaId: string): (rows: seq<AgendaRow>)
    ensures SortedBy(rows, DayTimeLeq)
    ensures forall x :: x in rows <==> x in agenda && x.turmaId == Some(turmaId) && IsClassSlot(x)
  {
    var own := Filter(agenda, OwnClassSlot(turmaId));
    DayTimeLeqTotalPreorder();
    SortBySorted(own, DayTimeLeq);
    SortByMembers(own, DayTimeLeq);
    SortBy(own, DayTimeLeq)
  }

  /** The record belongs to the class, has the time `horario` and lies within day `d`. */
  predicate ExactMatch(r: Registro, turmaId: string, horario: string, d: Date) {
    r.turmaId == Some(turmaId) && r.horario == Some(horario) && r.data.Some? && InDayRange(r.data.value, d)
  }

  function MatchesSlot(turmaId: string, horario: string, d: Date): Registro -> bool {
    (r: Registro) => ExactMatch(r, turmaId, horario, d)
  }

  /** The `maybeSingle` lookup of the record for (class, time, day): the record
      when exactly one matches; null when none or several do. */
  function FindExisting(registros: seq<Registro>, turmaId: string, horario: string, d: Date): (r: Option<Registro>)
    ensures r.Some? ==> r.value in registros && ExactMatch(r.value, turmaId, horario, d)
    ensures r.Some? ==> forall x :: x in registros && ExactMatch(x, turmaId, horario, d) ==> x == r.value
    ensures r.None? ==> (forall x :: x in registros ==> !ExactMatch(x, turmaId, horario, d))
                        || |Filter(registros, MatchesSlot(turmaId, horario, d))| >= 2
  {
    MaybeSingle(Filter(registros, MatchesSlot(turmaId, horario, d)))
  }

  /** The order `.order('data', { ascending: false })` returns records in:
      newest first, with a null timestamp ahead of every other. */
  predicate DataDescLeq(a: Registro, b: Registro) {
    a.data.None? || (b.data.Some? && !Before(a.data.value, b.data.value))
  }

  lemma DataDescTotalPreorder()
    ensures TotalPreorder(DataDescLeq)
  {
  }

  /** The history query with `.limit(1)`: the class's record that sorts first. */
  function History(registros: seq<Registro>, turmaId: string): (h: seq<Registro>)
    ensures |h| <= 1
    ensures h == [] <==> forall r :: r in registros ==> r.turmaId != Some(turmaId)
    ensures h != [] ==> h[0] in registros && h[0].turmaId == Some(turmaId)
    ensures h != [] ==> forall r :: r in registros && r.turmaId == Some(turmaId) ==> DataDescLeq(h[0], r)
  {
    var own := Filter(registros, RecordOf(turmaId));
    var sorted := SortBy(own, DataDescLeq);
    DataDescTotalPreorder();
    SortBySorted(own, DataDescLeq);
    SortByMembers(own, DataDescLeq);
    assert forall r :: r in registros && r.turmaId == Some(turmaId) ==> r in own;
    assert forall k :: 0 < k < |sorted| ==> DataDescLeq(sorted[0], sorted[k]);
    assert sorted != [] ==> sorted[0] in own && sorted[0].turmaId == Some(turmaId);
    if sorted == [] then [] else [sorted[0]]
  }

  /** A record of the class with a timestamp is never shown as the latest
      while a newer record of the class exists. */
  lemma HistoryIsLatest(registros: seq<Registro>, turmaId: string, r: Registro, t: Instant)
    requires r in registros && r.turmaId == Some(turmaId) && r.data == Some(t)
    ensures History(registros, turmaId) != []
    ensures History(registros, turmaId)[0].data.Some? ==>
      !Before(History(registros, turmaId)[0].data.value, t)
  {
  }

  // ---------------------------------------------------------------------------
  // Loading

  /** One run of `fetchClassAndSchedules` for class `turmaId` and date
      `selectedDate` (absent or empty in the address: `None`).

      The run sees the values of `prev` throughout: it decides the record
      lookup on `prev.horario`, even when it fills in a default time, and the
      history lookup on `prev.existingRecordId`, even when its own lookup has
      just changed that id. A run with no class id does nothing. */
  function Reconcile(prev: Screen, db: Db, turmaId: string, selectedDate: Option<Date>, failing: set<Read>)
    : (r: Screen)
    ensures turmaId == "" ==> r == prev
  {
    if turmaId == "" then prev
    else
      LookUp(prev, db, turmaId, selectedDate, failing).(
        classInfo := ClassInfoAfter(prev.classInfo, db, turmaId, failing),
        schedules := SlotsAfter(prev.schedules, db, turmaId, failing),
        horario := HorarioAfter(prev.horario, db, turmaId, failing),
        lastRecord := HistoryAfter(prev, db, turmaId, failing))
  }

  /** The `.single()` read of the class: its name and subject when exactly one
      class has the id, otherwise the header on screen. */
  function ClassInfoAfter(prev: ClassInfo, db: Db, turmaId: string, failing: set<Read>): ClassInfo {
    var turmaData := if TurmaRead in failing then None else MaybeSingle(Filter(db.turmas, TurmaWithId(turmaId)));
    if turmaData.Some? then ClassInfo(turmaData.value.name, turmaData.value.subject) else prev
  }

  function SlotsAfter(prev: seq<AgendaRow>, db: Db, turmaId: string, failing: set<Read>): seq<AgendaRow> {
    if AgendaRead in failing then prev else ClassSlots(db.agenda, turmaId)
  }

  function HorarioAfter(prev: string, db: Db, turmaId: string, failing: set<Read>): string {
    var slots := ClassSlots(db.agenda, turmaId);
    if AgendaRead !in failing && |slots| > 0 && prev == "" then slots[0].time else prev
  }

  /** The record lookup, with the time the run started with. */
  function LookUp(prev: Screen, db: Db, turmaId: string, selectedDate: Option<Date>, failing: set<Read>): Screen {
    if selectedDate.Some? && prev.horario != "" then
      var existing :=
        if ExistingRead in failing then None
        else FindExisting(db.registros, turmaId, prev.horario, selectedDate.value);
      if existing.Some? then
        prev.(existingRecordId := Some(existing.value.id),
              conteudo := existing.value.conteudo.GetOr(""),
              exercicios := existing.value.exercicios.GetOr(""),
              proximosPassos := existing.value.proximosPassos.GetOr(""))
      else
        prev.(existingRecordId := None, conteudo := "", exercicios := "", proximosPassos := "")
    else prev
  }

  /** The history read, gated on the id the run started with. */
  function HistoryAfter(prev: Screen, db: Db, turmaId: string, failing: set<Read>): Option<Registro> {
    if !Truthy(prev.existingRecordId) && HistoryRead !in failing then
      var h := History(db.registros, turmaId);
      if |h| > 0 then Some(h[0]) else prev.lastRecord
    else prev.lastRecord
  }

  /** The class header and slot list: the class's name and subject when
      exactly one class has the id, its class slots when the read succeeds,
      and otherwise what was on screen. */
  lemma ReconcileLoads(prev: Screen, db: Db, turmaId: string, selectedDate: Option<Date>, failing: set<Read>)
    requires turmaId != ""
    ensures var r := Reconcile(prev, db, turmaId, selectedDate, failing);
      && (TurmaRead !in failing && |Filter(db.turmas, TurmaWithId(turmaId))| == 1 ==>
            exists t :: t in db.turmas && t.id == turmaId && r.classInfo == ClassInfo(t.name, t.subject))
      && (TurmaRead in failing || |Filter(db.turmas, TurmaWithId(turmaId))| != 1 ==> r.classInfo == prev.classInfo)
      && (AgendaRead !in failing ==>
            forall x :: x in r.schedules <==> x in db.agenda && x.turmaId == Some(turmaId) && IsClassSlot(x))
      && (AgendaRead in failing ==> r.schedules == prev.schedules)
  {
    var r := Reconcile(prev, db, turmaId, selectedDate, failing);
    if TurmaRead !in failing && |Filter(db.turmas, TurmaWithId(turmaId))| == 1 {
      var t := Filter(db.turmas, TurmaWithId(turmaId))[0];
      assert t in Filter(db.turmas, TurmaWithId(turmaId));
    }
  }

  /** `horario` takes the first slot's time only when it was empty and the
      class has a slot; otherwise it keeps its value. */
  lemma ReconcileDefaultsHorario(prev: Screen, db: Db, turmaId: string, selectedDate: Option<Date>, failing: set<Read>)
    requires turmaId != ""
    ensures var r := Reconcile(prev, db, turmaId, selectedDate, failing);
      var slots := ClassSlots(db.agenda, turmaId);
      r.horario == if AgendaRead !in failing && slots != [] && prev.horario == "" then slots[0].time else prev.horario
    ensures var slots := ClassSlots(db.agenda, turmaId);
      AgendaRead !in failing && slots != [] && prev.horario == "" ==>
        exists x :: x in db.agenda && x.turmaId == Some(turmaId) && IsClassSlot(x)
          && Reconcile(prev, db, turmaId, selectedDate, failing).horario == x.time
  {
    var slots := ClassSlots(db.agenda, turmaId);
    if slots != [] {
      assert slots[0] in slots;
    }
  }

  /** The record lookup runs only with a date and a non-empty `horario`. When
      it runs, a unique match is loaded (null texts as empty) and its id
      remembered; otherwise the id is forgotten and the three texts are cleared,
      whatever they held. When it does not run, both stay as they were. */
  lemma ReconcileLooksUp(prev: Screen, db: Db, turmaId: string, selectedDate: Option<Date>, failing: set<Read>)
    requires turmaId != ""
    ensures var r := Reconcile(prev, db, turmaId, selectedDate, failing);
      && (selectedDate.None? || prev.horario == "" ==>
            r.existingRecordId == prev.existingRecordId && r.conteudo == prev.conteudo
            && r.exercicios == prev.exercicios && r.proximosPassos == prev.proximosPassos)
      && (selectedDate.Some? && prev.horario != "" && ExistingRead !in failing ==>
            var found := FindExisting(db.registros, turmaId, prev.horario, selectedDate.value);
            if found.Some? then
              && r.existingRecordId == Some(found.value.id)
              && r.conteudo == found.value.conteudo.GetOr("")
              && r.exercicios == found.value.exercicios.GetOr("")
              && r.proximosPassos == found.value.proximosPassos.GetOr("")
            else
              r.existingRecordId.None? && r.conteudo == "" && r.exercicios == "" && r.proximosPassos == "")
      && (selectedDate.Some? && prev.horario != "" && ExistingRead in failing ==>
            r.existingRecordId.None? && r.conteudo == "" && r.exercicios == "" && r.proximosPassos == "")
  {
  }

  /** The history lookup runs only when the previous render had no remembered
      record id; then the class's latest record becomes the reference, if it
      has one. Otherwise the reference stays as it was. */
  lemma ReconcileHistory(prev: Screen, db: Db, turmaId: string, selectedDate: Option<Date>, failing: set<Read>)
    requires turmaId != ""
    ensures var r := Reconcile(prev, db, turmaId, selectedDate, failing);
      var h := History(db.registros, turmaId);
      && (Truthy(prev.existingRecordId) ==> r.lastRecord == prev.lastRecord)
      && (!Truthy(prev.existingRecordId) && HistoryRead !in failing && h != [] ==> r.lastRecord == Some(h[0]))
      && (HistoryRead in failing || h == [] ==> r.lastRecord == prev.lastRecord)
  {
  }

  /** Because the history gate reads the previous id, a run that forgets a
      remembered record does not refresh the reference: the card shows exactly
      the reference an earlier run left, or stays hidden when there is none. */
  lemma StaleHistoryGate(prev: Screen, db: Db, turmaId: string, d: Date)
    requires turmaId != "" && prev.horario != ""
    requires Truthy(prev.existingRecordId)
    requires FindExisting(db.registros, turmaId, prev.horario, d).None?
    ensures var r := Reconcile(prev, db, turmaId, Some(d), {});
      && r.existingRecordId.None?
      && r.lastRecord == prev.lastRecord
      && (ShowsReferenceCard(r) <==> prev.lastRecord.Some?)
  {
  }

  /** A remembered record implies a known reference. */
  predicate ReferenceKnown(s: Screen) {
    Truthy(s.existingRecordId) ==> s.lastRecord.Some?
  }

  /** Every run whose history read succeeds keeps `ReferenceKnown`, and the
      screen starts with it: an id is remembered only in a run that also read
      the history, and the found record is itself one of the class's records. */
  lemma ReconcileKeepsReference(prev: Screen, db: Db, turmaId: string, selectedDate: Option<Date>,
                                failing: set<Read>, selectedTime: Option<string>)
    requires ReferenceKnown(prev) && HistoryRead !in failing
    ensures ReferenceKnown(Reconcile(prev, db, turmaId, selectedDate, failing))
    ensures ReferenceKnown(InitialScreen(selectedTime))
  {
    var r := Reconcile(prev, db, turmaId, selectedDate, failing);
    if turmaId != "" && !Truthy(prev.existingRecordId) && Truthy(r.existingRecordId) {
      var found := FindExisting(db.registros, turmaId, prev.horario, selectedDate.value);
      assert found.value in db.registros && found.value.turmaId == Some(turmaId);
    }
  }

  /** So on a screen reached through successful history reads, the stale gate
      still shows a reference card, holding the latest record of an earlier run. */
  lemma StaleGateShowsEarlierReference(prev: Screen, db: Db, turmaId: string, d: Date)
    requires turmaId != "" && prev.horario != ""
    requires ReferenceKnown(prev) && Truthy(prev.existingRecordId)
    requires FindExisting(db.registros, turmaId, prev.horario, d).None?
    ensures var r := Reconcile(prev, db, turmaId, Some(d), {});
      ShowsReferenceCard(r) && r.lastRecord == prev.lastRecord
  {
    StaleHistoryGate(prev, db, turmaId, d);
  }

  /** The next run, triggered by choosing another time `h`, reads the history
      again: the reference becomes the class's latest record, and the card
      shows unless the lookup loads a record (with a non-empty id) for `h`. */
  lemma RerunShowsReference(prev: Screen, db: Db, turmaId: string, d: Date, h: string, x: Registro)
    requires turmaId != "" && prev.horario != "" && h != "" && h != prev.horario
    requires FindExisting(db.registros, turmaId, prev.horario, d).None?
    requires x in db.registros && x.turmaId == Some(turmaId)
    ensures var r1 := Reconcile(prev, db, turmaId, Some(d), {});
      var r2 := Reconcile(r1.(horario := h), db, turmaId, Some(d), {});
      && r2.lastRecord == Some(History(db.registros, turmaId)[0])
      && (ShowsReferenceCard(r2) <==>
            var found := FindExisting(db.registros, turmaId, h, d);
            found.None? || found.value.id == "")
  {
    var r1 := Reconcile(prev, db, turmaId, Some(d), {});
    assert r1.existingRecordId.None?;
    var q := r1.(horario := h);
    assert HistoryAfter(q, db, turmaId, {}) == Some(History(db.registros, turmaId)[0]);
    var found := FindExisting(db.registros, turmaId, h, d);
    assert LookUp(q, db, turmaId, Some(d), {}).existingRecordId
      == if found.Some? then Some(found.value.id) else None;
  }

  // ---------------------------------------------------------------------------
  // What the screen shows

  /** `isFuture`: the displayed moment (noon of the selected date, or now) is
      after now and on another calendar day. */
  function IsFuture(selectedDate: Option<Date>, now: Instant): (b: bool)
    ensures b <==> selectedDate.Some? && DateBefore(now.date, selectedDate.value)
  {
    var display := if selectedDate.Some? then NoonOf(selectedDate.value) else now;
    Before(now, display) && display.date != now.date
  }

  /** The reference card shows when no record is remembered and a latest record is known. */
  predicate ShowsReferenceCard(s: Screen) {
    !Truthy(s.existingRecordId) && s.lastRecord.Some?
  }

  // ---------------------------------------------------------------------------
  // Saving

  /** The columns `handleSave` writes. */
  datatype RecordData = RecordData(
    turmaId: string, horario: string, conteudo: string, exercicios: string,
    proximosPassos: string, data: Instant)

  /** `recordData`: the form, stamped with noon of the selected date, or with
      the current moment when there is none. */
  function RecordDataOf(s: Screen, turmaId: string, selectedDate: Option<Date>, now: Instant): (d: RecordData)
    ensures selectedDate.Some? ==> forall e :: InDayRange(d.data, e) <==> e == selectedDate.value
    ensures selectedDate.None? ==> d.data == now
  {
    var data := if selectedDate.Some? then NoonOf(selectedDate.value) else now;
    RecordData(turmaId, s.horario, s.conteudo, s.exercicios, s.proximosPassos, data)
  }

  /** A record row holding `d` under the id `id`. */
  function WithData(id: string, d: RecordData): Registro {
    Registro(id, Some(d.turmaId), Some(d.data), Some(d.horario),
             Some(d.conteudo), Some(d.exercicios), Some(d.proximosPassos))
  }

  /** `.update(recordData).eq('id', id)`. */
  function UpdateRecords(registros: seq<Registro>, id: string, d: RecordData): (r: seq<Registro>)
    ensures |r| == |registros|
    ensures forall k :: 0 <= k < |r| ==> r[k].id == registros[k].id
    ensures forall k :: 0 <= k < |r| && registros[k].id != id ==> r[k] == registros[k]
    ensures forall k :: 0 <= k < |r| && registros[k].id == id ==> r[k] == WithData(id, d)
  {
    seq(|registros|, k requires 0 <= k < |registros| =>
      if registros[k].id == id then WithData(id, d) else registros[k])
  }

  datatype SaveResult = SaveResult(db: Db, saved: bool)

  /** `handleSave`: updates the remembered record when there is one and
      inserts a new record (the database picks its id, `freshId`) otherwise;
      a failed write leaves the database as it was and shows the alert. */
  function Save(s: Screen, db: Db, turmaId: string, selectedDate: Option<Date>, now: Instant,
                freshId: string, writeFails: bool): (r: SaveResult)
    ensures r.saved <==> !writeFails
    ensures !r.saved ==> r.db == db
    ensures r.db.turmas == db.turmas && r.db.agenda == db.agenda
    ensures r.saved && Truthy(s.existingRecordId) ==>
      |r.db.registros| == |db.registros|
      && (forall x :: x in r.db.registros && x.id == s.existingRecordId.value ==>
            x == WithData(x.id, RecordDataOf(s, turmaId, selectedDate, now)))
      && (forall x :: x in db.registros && x.id != s.existingRecordId.value ==> x in r.db.registros)
    ensures r.saved && !Truthy(s.existingRecordId) ==>
      |r.db.registros| == |db.registros| + 1
      && r.db.registros[..|db.registros|] == db.registros
      && r.db.registros[|db.registros|..] == [WithData(freshId, RecordDataOf(s, turmaId, selectedDate, now))]
  {
    var d := RecordDataOf(s, turmaId, selectedDate, now);
    if writeFails then SaveResult(db, false)
    else if Truthy(s.existingRecordId) then
      SaveResult(db.(registros := UpdateRecords(db.registros, s.existingRecordId.value, d)), true)
    else
      SaveResult(db.(registros := db.registros + [WithData(freshId, d)]), true)
  }

  /** The record the save leaves for the lookup to find: the remembered one,
      updated, or the new one. */
  function SavedId(s: Screen, freshId: string): string {
    if Truthy(s.existingRecordId) then s.existingRecordId.value else freshId
  }

  /** Saving for a date and a time, then opening the screen again for the same
      class, date and time, finds the saved record and shows its texts, in
      both modes: provided the remembered record is the only one with its id,
      and no other record already sits in that slot of that day. */
  lemma SaveThenReconcile(s: Screen, db: Db, turmaId: string, d: Date, now: Instant, freshId: string,
                          reopened: Screen)
    requires turmaId != "" && s.horario != "" && reopened.horario == s.horario
    requires Truthy(s.existingRecordId) ==>
      |Filter(db.registros, RecordWithId(s.existingRecordId.value))| == 1
    requires forall x :: x in db.registros && ExactMatch(x, turmaId, s.horario, d) ==>
      Truthy(s.existingRecordId) && x.id == s.existingRecordId.value
    ensures var after := Save(s, db, turmaId, Some(d), now, freshId, false).db;
      var r := Reconcile(reopened, after, turmaId, Some(d), {});
      && r.existingRecordId == Some(SavedId(s, freshId))
      && r.conteudo == s.conteudo && r.exercicios == s.exercicios && r.proximosPassos == s.proximosPassos
  {
    var data := RecordDataOf(s, turmaId, Some(d), now);
    var after := Save(s, db, turmaId, Some(d), now, freshId, false).db;
    var saved := WithData(SavedId(s, freshId), data);
    var p := MatchesSlot(turmaId, s.horario, d);
    assert p(saved);
    if Truthy(s.existingRecordId) {
      var id := s.existingRecordId.value;
      var withId := Filter(db.registros, RecordWithId(id));
      assert withId[0] in withId;
      var i :| 0 <= i < |db.registros| && db.registros[i] == withId[0];
      forall j | 0 <= j < |db.registros| && j != i
        ensures db.registros[j].id != id
      {
        if db.registros[j].id == id {
          if i < j {
            OtherWithId(db.registros, id, i, j);
          } else {
            OtherWithId(db.registros, id, j, i);
          }
        }
      }
      forall j | 0 <= j < |after.registros| && j != i
        ensures !p(after.registros[j])
      {
        assert after.registros[j] == db.registros[j];
      }
      FilterSingle(after.registros, p, i);
    } else {
      FilterNone(db.registros, p);
      FilterAppend(db.registros, [saved], p);
      assert after.registros == db.registros + [saved];
    }
    assert FindExisting(after.registros, turmaId, s.horario, d) == Some(saved);
  }

  /** Two positions holding the same id give the id filter at least two rows. */
  lemma {:induction false} OtherWithId(registros: seq<Registro>, id: string, i: int, j: int)
    requires 0 <= i < j < |registros|
    requires registros[i].id == id && registros[j].id == id
    ensures |Filter(registros, RecordWithId(id))| >= 2
  {
    if i == 0 {
      assert registros[j] in registros[1..];
      assert registros[j] in Filter(registros[1..], RecordWithId(id));
    } else {
      OtherWithId(registros[1..], id, i - 1, j - 1);
    }
  }
}

=== FILE: schedule_editor.dfy ===
/** The class editor (`screens/NovaTurma.tsx`): the list of weekly slots the
    teacher edits, the keystroke mask on its time fields, the `time` text a slot
    is stored as, the cached "next class" label, and the save and load of a
    class together with its slots. */
module ScheduleEditor {
  import opened Wrappers
  import opened Text
  import opened Seqs
  import opened Tables

  /** One editable slot: weekday (0 = Sunday) and start and end time as typed. */
  datatype Entry = Entry(dayOfWeek: int, startTime: string, endTime: string)

  /** The slot `addSchedule` appends and the editor starts with. */
  const BlankEntry: Entry := Entry(1, "", "")

  const InitialSchedules: seq<Entry> := [BlankEntry]

  // ---------------------------------------------------------------------------
  // The HH:MM keystroke mask

  /** The strings the mask can produce: up to two digits, or two digits, a
      colon and one or two more digits. */
  predicate MaskShaped(s: string) {
    || (|s| <= 2 && AllDigits(s))
    || (4 <= |s| <= 5 && s[2] == ':' && AllDigits(s[..2]) && AllDigits(s[3..]))
  }

  /** `handleTimeChange`'s mask: keep the digits, at most four of them, and put
      a colon after the second when there are more than two. */
  function MaskTime(raw: string): (masked: string)
    ensures Digits(masked) == Prefix(Digits(raw), 4)
    ensures MaskShaped(masked)
    ensures |Digits(raw)| <= 2 ==> masked == Digits(raw)
    ensures |Digits(raw)| > 2 ==> masked[2] == ':'
  {
    var limited := Prefix(Digits(raw), 4);
    if |limited| > 2 then
      ColonInserted(limited);
      limited[..2] + ":" + limited[2..]
    else
      DigitsOfDigits(limited);
      limited
  }

  /** Putting the colon after the first two of three or four digits gives a
      masked value whose digits are the original ones. */
  lemma ColonInserted(limited: string)
    requires 2 < |limited| <= 4 && AllDigits(limited)
    ensures var masked := limited[..2] + ":" + limited[2..];
            && Digits(masked) == limited && MaskShaped(masked) && masked[2] == ':'
  {
    var masked := limited[..2] + ":" + limited[2..];
    DigitsAppend(limited[..2] + ":", limited[2..]);
    DigitsAppend(limited[..2], ":");
    DigitsOfDigits(limited[..2]);
    DigitsOfDigits(limited[2..]);
    assert limited[..2] + limited[2..] == limited;
    assert masked[..2] == limited[..2] && masked[3..] == limited[2..];
  }

  /** Masking an already masked value changes nothing. */
  lemma MaskTimeIdempotent(raw: string)
    ensures MaskTime(MaskTime(raw)) == MaskTime(raw)
  {
    var d := Prefix(Digits(raw), 4);
    assert Digits(MaskTime(raw)) == d;
    assert Prefix(d, 4) == d;
  }

  /** The mask's outputs are exactly its fixed points. */
  lemma {:induction false} MaskTimeFixpoints(s: string)
    ensures MaskTime(s) == s <==> MaskShaped(s)
  {
    if MaskShaped(s) {
      if |s| <= 2 {
        DigitsOfDigits(s);
      } else {
        assert s == s[..2] + ":" + s[3..];
        DigitsAppend(s[..2] + ":", s[3..]);
        DigitsAppend(s[..2], ":");
        DigitsOfDigits(s[..2]);
        DigitsOfDigits(s[3..]);
        var d := s[..2] + s[3..];
        assert Digits(s) == d;
        assert d[..2] == s[..2] && d[2..] == s[3..];
      }
    }
  }

  lemma MaskShapedHasNoSpace(s: string)
    requires MaskShaped(s)
    ensures ' ' !in s
  {
    forall i | 0 <= i < |s|
      ensures s[i] != ' '
    {
      if |s| > 2 && i >= 3 {
        assert s[3..][i - 3] == s[i];
      } else if |s| > 2 && i < 2 {
        assert s[..2][i] == s[i];
      }
    }
  }

  // ---------------------------------------------------------------------------
  // Editing the slot list

  datatype TimeField = StartTime | EndTime

  /** One field assignment `updateSchedule(index, field, value)` performs. */
  datatype Edit = SetDay(day: int) | SetTime(field: TimeField, value: string)

  function ApplyEdit(e: Entry, edit: Edit): Entry {
    match edit
    case SetDay(d) => e.(dayOfWeek := d)
    case SetTime(StartTime, v) => e.(startTime := v)
    case SetTime(EndTime, v) => e.(endTime := v)
  }

  /** `addSchedule`: appends a blank slot and keeps the existing ones. */
  function AddSchedule(schedules: seq<Entry>): (r: seq<Entry>)
    ensures |r| == |schedules| + 1
    ensures r[..|schedules|] == schedules && r[|schedules|] == BlankEntry
  {
    schedules + [BlankEntry]
  }

  /** `removeSchedule`: drops entry `index` when more than one entry exists;
      with a single entry the list is left alone, so it never becomes empty. */
  function RemoveSchedule(schedules: seq<Entry>, index: int): (r: seq<Entry>)
    ensures |schedules| > 1 && 0 <= index < |schedules| ==>
              r == schedules[..index] + schedules[index + 1..]
    ensures !(|schedules| > 1 && 0 <= index < |schedules|) ==> r == schedules
    ensures |schedules| >= 1 ==> |r| >= 1
  {
    if |schedules| > 1 then RemoveAt(schedules, index) else schedules
  }

  /** `updateSchedule`: entry `index` gets the new value in the one field named
      by the edit; its other fields and every other entry are unchanged. The
      index always comes from the rendered list, so it is in range. */
  function UpdateSchedule(schedules: seq<Entry>, index: int, edit: Edit): (r: seq<Entry>)
    requires 0 <= index < |schedules|
    ensures |r| == |schedules|
    ensures forall j :: 0 <= j < |schedules| && j != index ==> r[j] == schedules[j]
    ensures r[index].dayOfWeek == (if edit.SetDay? then edit.day else schedules[index].dayOfWeek)
    ensures r[index].startTime ==
              (if edit.SetTime? && edit.field == StartTime then edit.value else schedules[index].startTime)
    ensures r[index].endTime ==
              (if edit.SetTime? && edit.field == EndTime then edit.value else schedules[index].endTime)
  {
    schedules[index := ApplyEdit(schedules[index], edit)]
  }

  /** `handleTimeChange`: the masked text goes into the named time field. */
  function HandleTimeChange(schedules: seq<Entry>, index: int, field: TimeField, raw: string): (r: seq<Entry>)
    requires 0 <= index < |schedules|
    ensures |r| == |schedules|
    ensures forall j :: 0 <= j < |schedules| && j != index ==> r[j] == schedules[j]
    ensures r[index].dayOfWeek == schedules[index].dayOfWeek
    ensures field == StartTime ==> r[index].startTime == MaskTime(raw) && r[index].endTime == schedules[index].endTime
    ensures field == EndTime ==> r[index].endTime == MaskTime(raw) && r[index].startTime == schedules[index].startTime
  {
    UpdateSchedule(schedules, index, SetTime(field, MaskTime(raw)))
  }

  /** The user's actions on the slot list: the "+" button, a slot's close
      button, the weekday select and a keystroke in a time field. */
  datatype EditorAction =
    | Add
    | Remove(index: int)
    | ChooseDay(index: int, day: int)
    | TypeTime(index: int, field: TimeField, raw: string)

  /** The rendered list only offers indices of existing slots. */
  predicate Offered(schedules: seq<Entry>, action: EditorAction) {
    match action
    case Add => true
    case Remove(_) => true
    case ChooseDay(i, _) => 0 <= i < |schedules|
    case TypeTime(i, _, _) => 0 <= i < |schedules|
  }

  function Step(schedules: seq<Entry>, action: EditorAction): seq<Entry>
    requires Offered(schedules, action)
  {
    match action
    case Add => AddSchedule(schedules)
    case Remove(i) => RemoveSchedule(schedules, i)
    case ChooseDay(i, d) => UpdateSchedule(schedules, i, SetDay(d))
    case TypeTime(i, f, raw) => HandleTimeChange(schedules, i, f, raw)
  }

  predicate Feasible(schedules: seq<Entry>, actions: seq<EditorAction>)
    decreases |actions|
  {
    actions == [] || (Offered(schedules, actions[0]) && Feasible(Step(schedules, actions[0]), actions[1..]))
  }

  function Run(schedules: seq<Entry>, actions: seq<EditorAction>): seq<Entry>
    requires Feasible(schedules, actions)
    decreases |actions|
  {
    if actions == [] then schedules else Run(Step(schedules, actions[0]), actions[1..])
  }

  predicate EntryShaped(e: Entry) {
    MaskShaped(e.startTime) && MaskShaped(e.endTime)
  }

  /** Changing one entry into a shaped one keeps every entry shaped. */
  lemma OneEntryChanged(schedules: seq<Entry>, next: seq<Entry>, i: int)
    requires 0 <= i < |schedules| == |next|
    requires forall j :: 0 <= j < |schedules| && j != i ==> next[j] == schedules[j]
    requires EntryShaped(next[i]) && forall e :: e in schedules ==> EntryShaped(e)
    ensures forall e :: e in next ==> EntryShaped(e)
  {
    forall e | e in next
      ensures EntryShaped(e)
    {
      var k :| 0 <= k < |next| && next[k] == e;
      if k != i { assert schedules[k] in schedules; }
    }
  }

  /** Removing an entry keeps only entries that were there. */
  lemma RemoveKeepsMembers(schedules: seq<Entry>, i: int)
    ensures forall e :: e in RemoveSchedule(schedules, i) ==> e in schedules
  {
    var next := RemoveSchedule(schedules, i);
    forall e | e in next
      ensures e in schedules
    {
      var k :| 0 <= k < |next| && next[k] == e;
      if |schedules| > 1 && 0 <= i < |schedules| {
        if k < i { assert next[k] == schedules[k]; } else { assert next[k] == schedules[k + 1]; }
      }
    }
  }

  /** One action keeps the list non-empty and every time field a mask output. */
  lemma StepKeepsInvariant(schedules: seq<Entry>, action: EditorAction)
    requires Offered(schedules, action)
    requires |schedules| >= 1 && forall e :: e in schedules ==> EntryShaped(e)
    ensures |Step(schedules, action)| >= 1
    ensures forall e :: e in Step(schedules, action) ==> EntryShaped(e)
  {
    var next := Step(schedules, action);
    match action {
      case Add =>
        assert forall e :: e in next ==> e in schedules || e == BlankEntry;
      case Remove(i) =>
        RemoveKeepsMembers(schedules, i);
      case ChooseDay(i, d) =>
        assert schedules[i] in schedules;
        OneEntryChanged(schedules, next, i);
      case TypeTime(i, f, raw) =>
        assert schedules[i] in schedules;
        OneEntryChanged(schedules, next, i);
    }
  }

  /** Whatever the user does, the list stays non-empty and every time field
      holds a mask output. */
  lemma {:induction false} RunKeepsInvariant(schedules: seq<Entry>, actions: seq<EditorAction>)
    requires Feasible(schedules, actions)
    requires |schedules| >= 1 && forall e :: e in schedules ==> EntryShaped(e)
    ensures |Run(schedules, actions)| >= 1
    ensures forall e :: e in Run(schedules, actions) ==> EntryShaped(e)
    decreases |actions|
  {
    if actions != [] {
      StepKeepsInvariant(schedules, actions[0]);
      RunKeepsInvariant(Step(schedules, actions[0]), actions[1..]);
    }
  }

  /** The editor as the user finds it for a new class: one blank slot, and it
      stays non-empty whatever the user does. */
  lemma EditorNeverEmpty(actions: seq<EditorAction>)
    requires Feasible(InitialSchedules, actions)
    ensures |Run(InitialSchedules, actions)| >= 1
  {
    assert MaskShaped("");
    RunKeepsInvariant(InitialSchedules, actions);
  }

  // ---------------------------------------------------------------------------
  // The stored `time` text

  const RangeSeparator: string := " - "

  /** The `time` column written for a slot: the start, then `" - "` and the
      end when the end is non-empty. */
  function JoinTime(start: string, end: string): (time: string)
    ensures |time| >= |start| && time[..|start|] == start
    ensures time == start <==> end == ""
  {
    start + (if end != "" then RangeSeparator + end else "")
  }

  /** How the editor reads a stored `time` back: `time.split(' - ')`, then the
      first piece and the second piece or `''` when there is none. */
  function SplitTime(time: string): (r: (string, string))
    ensures !Includes(time, RangeSeparator) ==> r == (time, "")
    ensures Includes(time, RangeSeparator) ==>
      && |r.0| == IndexOf(time, RangeSeparator)
      && time[..|r.0|] == r.0
      && var after := time[|r.0| + |RangeSeparator|..];
      && |r.1| <= |after| && after[..|r.1|] == r.1 && !Includes(r.1, RangeSeparator)
      && (|r.1| == |after| || OccursAt(after, RangeSeparator, |r.1|))
    ensures Includes(time, RangeSeparator) ==>
      var after := time[IndexOf(time, RangeSeparator) + |RangeSeparator|..];
      && (Includes(after, RangeSeparator) ==> |r.1| == IndexOf(after, RangeSeparator))
      && (!Includes(after, RangeSeparator) ==> r.1 == after)
  {
    var pieces := Split(time, RangeSeparator);
    if |pieces| > 1 then
      JoinHead(pieces, RangeSeparator);
      JoinHead(pieces[1..], RangeSeparator);
      assert time[|pieces[0]| + |RangeSeparator|..] == Join(pieces[1..], RangeSeparator);
      (pieces[0], pieces[1])
    else
      (pieces[0], "")
  }

  /** Reading back what was stored recovers start and end, provided neither
      holds a space (so no `" - "` can straddle the joint). */
  lemma JoinSplitRoundTrip(start: string, end: string)
    requires ' ' !in start && ' ' !in end
    ensures SplitTime(JoinTime(start, end)) == (start, end)
  {
    if end == "" {
      assert JoinTime(start, end) == start;
      SplitWithout(start, RangeSeparator);
    } else {
      assert JoinTime(start, end) == start + RangeSeparator + end;
      SplitCons(start, RangeSeparator, end);
      SplitWithout(end, RangeSeparator);
      assert Split(JoinTime(start, end), RangeSeparator) == [start, end];
    }
  }

  /** Any pair of mask outputs survives the round trip. */
  lemma MaskedTimesRoundTrip(rawStart: string, rawEnd: string)
    ensures SplitTime(JoinTime(MaskTime(rawStart), MaskTime(rawEnd))) == (MaskTime(rawStart), MaskTime(rawEnd))
  {
    MaskShapedHasNoSpace(MaskTime(rawStart));
    MaskShapedHasNoSpace(MaskTime(rawEnd));
    JoinSplitRoundTrip(MaskTime(rawStart), MaskTime(rawEnd));
  }

  /** Freedom from `" - "` in each part is not enough: here the separator is
      found straddling the joint, and the start comes back cut short. */
  lemma JoinSplitStraddle()
    ensures SplitTime(JoinTime("x -", " y")).0 == "x"
  {
    assert JoinTime("x -", " y") == "x" + RangeSeparator + "-  y";
    SplitCons("x", RangeSeparator, "-  y");
  }

  /** Where separators overlap, as in `"x - a - - b"`, the end stops at the
      first separator after the start: `"a"`, not `"a -"`. The text is spelt
      out from the separator constant. */
  lemma SplitTimeOverlap()
    ensures SplitTime("x" + RangeSeparator + "a" + RangeSeparator + "- b") == ("x", "a")
  {
    var rest := "a" + RangeSeparator + "- b";
    var time := "x" + RangeSeparator + rest;
    assert time == "x" + RangeSeparator + "a" + RangeSeparator + "- b";
    SplitCons("x", RangeSeparator, rest);
    SplitCons("a", RangeSeparator, "- b");
    var pieces := Split(time, RangeSeparator);
    assert pieces == ["x"] + (["a"] + Split("- b", RangeSeparator));
    assert |pieces| > 1 && pieces[0] == "x" && pieces[1] == "a";
  }

  // ---------------------------------------------------------------------------
  // The cached "next class" label

  const WeekdayNames: seq<string> :=
    ["Domingo", "Segunda-feira", "Terça-feira", "Quarta-feira", "Quinta-feira", "Sexta-feira", "Sábado"]

  /** The first three letters of the weekday's name, or `"undefined"` (what
      the template literal prints) when no weekday has that value. */
  function DayAbbrev(day: int): string {
    if 0 <= day < |WeekdayNames| then Prefix(WeekdayNames[day], 3) else "undefined"
  }

  /** The `next_class` text saved with the class, built from the first slot only. */
  function NextClassLabel(schedules: seq<Entry>): string
    requires |schedules| >= 1
  {
    DayAbbrev(schedules[0].dayOfWeek) + " " + JoinTime(schedules[0].startTime, schedules[0].endTime)
  }

  /** The label is the weekday abbreviation, a space and the first slot's
      stored time, from which the first slot's start and end can be read back;
      no other slot affects it. */
  lemma NextClassLabelDecodes(schedules: seq<Entry>)
    requires |schedules| >= 1 && 0 <= schedules[0].dayOfWeek < 7
    requires ' ' !in schedules[0].startTime && ' ' !in schedules[0].endTime
    ensures var nextLabel := NextClassLabel(schedules);
      && |nextLabel| >= 4 && nextLabel[..3] == DayAbbrev(schedules[0].dayOfWeek) && nextLabel[3] == ' '
      && SplitTime(nextLabel[4..]) == (schedules[0].startTime, schedules[0].endTime)
    ensures forall other: seq<Entry> :: |other| >= 1 && other[0] == schedules[0] ==>
      NextClassLabel(other) == NextClassLabel(schedules)
  {
    var nextLabel := NextClassLabel(schedules);
    var first := schedules[0];
    assert |DayAbbrev(first.dayOfWeek)| == 3;
    assert nextLabel[4..] == JoinTime(first.startTime, first.endTime);
    JoinSplitRoundTrip(first.startTime, first.endTime);
  }

  lemma NextClassLabelExamples()
    ensures NextClassLabel([Entry(2, "08:00", "09:30")]) == "Ter 08:00 - 09:30"
    ensures NextClassLabel([Entry(2, "08:00", "")]) == "Ter 08:00"
  {
  }

  // ---------------------------------------------------------------------------
  // Saving and loading a class

  /** The class fields of the form. */
  datatype TurmaForm = TurmaForm(name: string, subject: string, studentsCount: int, status: string)

  /** A slot is written only when its start time is not blank after trimming. */
  predicate HasStart(e: Entry) {
    Trim(e.startTime) != ""
  }

  function SlotTitle(form: TurmaForm): string {
    form.name + " - " + form.subject
  }

  function ToRow(turmaId: string, form: TurmaForm, e: Entry): AgendaRow {
    AgendaRow(Some(turmaId), SlotTitle(form), JoinTime(e.startTime, e.endTime), e.dayOfWeek, Some(ClassKind))
  }

  /** The agenda rows `handleSubmit` inserts: one per slot with a start time,
      in list order, each a class slot of `turmaId` titled with the class. */
  function AgendaInserts(turmaId: string, form: TurmaForm, schedules: seq<Entry>): (rows: seq<AgendaRow>)
    ensures |rows| <= |schedules|
    ensures forall r :: r in rows ==> r.turmaId == Some(turmaId) && IsClassSlot(r) && r.title == SlotTitle(form)
    ensures forall e :: e in schedules && HasStart(e) ==> ToRow(turmaId, form, e) in rows
    ensures forall r :: r in rows ==> exists e :: e in schedules && HasStart(e) && r == ToRow(turmaId, form, e)
  {
    var kept := Filter(schedules, HasStart);
    var rows := seq(|kept|, k requires 0 <= k < |kept| => ToRow(turmaId, form, kept[k]));
    InsertsFromKept(turmaId, form, schedules, kept, rows);
    rows
  }

  /** The rows built one per kept slot are exactly the rows of the kept slots. */
  lemma InsertsFromKept(turmaId: string, form: TurmaForm, schedules: seq<Entry>, kept: seq<Entry>, rows: seq<AgendaRow>)
    requires kept == Filter(schedules, HasStart)
    requires |rows| == |kept| && forall k :: 0 <= k < |kept| ==> rows[k] == ToRow(turmaId, form, kept[k])
    ensures forall e :: e in schedules && HasStart(e) ==> ToRow(turmaId, form, e) in rows
    ensures forall r :: r in rows ==> exists e :: e in schedules && HasStart(e) && r == ToRow(turmaId, form, e)
  {
    KeptHaveRows(turmaId, form, schedules, kept, rows);
    RowsHaveKept(turmaId, form, schedules, kept, rows);
  }

  /** Every slot with a start time gets its row. */
  lemma KeptHaveRows(turmaId: string, form: TurmaForm, schedules: seq<Entry>, kept: seq<Entry>, rows: seq<AgendaRow>)
    requires kept == Filter(schedules, HasStart)
    requires |rows| == |kept| && forall k :: 0 <= k < |kept| ==> rows[k] == ToRow(turmaId, form, kept[k])
    ensures forall e :: e in schedules && HasStart(e) ==> ToRow(turmaId, form, e) in rows
  {
    forall e | e in schedules && HasStart(e)
      ensures ToRow(turmaId, form, e) in rows
    {
      assert e in kept;
      var k :| 0 <= k < |kept| && kept[k] == e;
      assert rows[k] == ToRow(turmaId, form, e);
    }
  }

  /** Every row comes from a slot with a start time. */
  lemma RowsHaveKept(turmaId: string, form: TurmaForm, schedules: seq<Entry>, kept: seq<Entry>, rows: seq<AgendaRow>)
    requires kept == Filter(schedules, HasStart)
    requires |rows| == |kept| && forall k :: 0 <= k < |kept| ==> rows[k] == ToRow(turmaId, form, kept[k])
    ensures forall r :: r in rows ==> exists e :: e in schedules && HasStart(e) && r == ToRow(turmaId, form, e)
  {
    forall r | r in rows
      ensures exists e :: e in schedules && HasStart(e) && r == ToRow(turmaId, form, e)
    {
      var k :| 0 <= k < |rows| && rows[k] == r;
      assert kept[k] in kept;
      assert kept[k] in schedules && HasStart(kept[k]);
    }
  }

  function EntryOf(row: AgendaRow): Entry {
    var (start, end) := SplitTime(row.time);
    Entry(row.dayOfWeek, start, end)
  }

  /** `fetchTurma`'s schedule step: a non-empty result replaces the list, an
      empty or failed one leaves it as it was. */
  function LoadSchedules(current: seq<Entry>, agendaData: Option<seq<AgendaRow>>): (r: seq<Entry>)
    ensures |current| >= 1 ==> |r| >= 1
    ensures agendaData.None? || agendaData == Some([]) ==> r == current
    ensures agendaData.Some? && agendaData.value != [] ==>
      |r| == |agendaData.value|
      && forall k :: 0 <= k < |r| ==>
           r[k].dayOfWeek == agendaData.value[k].dayOfWeek
           && (r[k].startTime, r[k].endTime) == SplitTime(agendaData.value[k].time)
  {
    if agendaData.Some? && |agendaData.value| > 0 then
      seq(|agendaData.value|, k requires 0 <= k < |agendaData.value| => EntryOf(agendaData.value[k]))
    else current
  }

  /** Loading the rows just written gives back the slots that had a start
      time, in order; when none had one the list on screen stays. */
  lemma SavedSchedulesReload(turmaId: string, form: TurmaForm, schedules: seq<Entry>, current: seq<Entry>)
    requires forall e :: e in schedules ==> ' ' !in e.startTime && ' ' !in e.endTime
    ensures var kept := Filter(schedules, HasStart);
      LoadSchedules(current, Some(AgendaInserts(turmaId, form, schedules))) == (if kept == [] then current else kept)
  {
    var kept := Filter(schedules, HasStart);
    var rows := AgendaInserts(turmaId, form, schedules);
    if kept != [] {
      var loaded := LoadSchedules(current, Some(rows));
      assert |loaded| == |kept|;
      forall k | 0 <= k < |kept|
        ensures loaded[k] == kept[k]
      {
        assert kept[k] in schedules;
        JoinSplitRoundTrip(kept[k].startTime, kept[k].endTime);
      }
    }
  }

  /** The failure points of `handleSubmit`'s writes. */
  datatype SubmitWrite = TurmaWrite | AgendaDelete | AgendaInsert

  /** The database afterwards, and whether the screen went back to the class list. */
  datatype SubmitResult = SubmitResult(db: Db, navigated: bool)

  function ApplyForm(t: Turma, form: TurmaForm, nextLabel: string): Turma {
    t.(name := form.name, subject := form.subject, studentsCount := Some(form.studentsCount),
       status := Some(form.status), nextClass := Some(nextLabel))
  }

  function NewTurma(id: string, form: TurmaForm, nextLabel: string): Turma {
    Turma(id, form.name, form.subject, Some(form.studentsCount), Some(form.status), Some(nextLabel))
  }

  /** `.update(finalTurmaData).eq('id', id)`. */
  function UpdateTurmas(turmas: seq<Turma>, id: string, form: TurmaForm, nextLabel: string): (r: seq<Turma>)
    ensures |r| == |turmas|
    ensures forall k :: 0 <= k < |turmas| ==>
      r[k] == (if turmas[k].id == id then ApplyForm(turmas[k], form, nextLabel) else turmas[k])
  {
    if turmas == [] then []
    else [if turmas[0].id == id then ApplyForm(turmas[0], form, nextLabel) else turmas[0]]
         + UpdateTurmas(turmas[1..], id, form, nextLabel)
  }

  /** `isEditing = !!id`. */
  predicate IsEditing(editingId: Option<string>) {
    Truthy(editingId)
  }

  /** The id the slots are written under: the route's id when editing,
      otherwise the id the database gave the inserted class. */
  function SubmitTarget(editingId: Option<string>, freshId: string): string {
    if IsEditing(editingId) then editingId.value else freshId
  }

  /** The class table after the successful class write: the update of the
      edited class, or the insert of a new one. */
  function WriteTurma(turmas: seq<Turma>, editingId: Option<string>, form: TurmaForm,
                      nextLabel: string, freshId: string): (r: seq<Turma>)
    ensures IsEditing(editingId) ==> |r| == |turmas|
    ensures !IsEditing(editingId) ==> |r| == |turmas| + 1 && r[..|turmas|] == turmas && r[|turmas|].id == freshId
  {
    if IsEditing(editingId) then UpdateTurmas(turmas, editingId.value, form, nextLabel)
    else turmas + [NewTurma(freshId, form, nextLabel)]
  }

  /** The agenda table after `delete().eq('turma_id', id)` and the insert of
      `rows` (skipped when there are none); a failed step changes nothing. */
  function ReplaceSlots(agenda: seq<AgendaRow>, id: string, rows: seq<AgendaRow>,
                        deleteFails: bool, insertFails: bool): seq<AgendaRow>
  {
    var afterDelete := if deleteFails then agenda else Filter(agenda, NotSlotOf(id));
    if |rows| == 0 || insertFails then afterDelete else afterDelete + rows
  }

  /** Without failures the class's slots become exactly `rows` and the other
      classes' slots stay as they were, in order. */
  lemma ReplaceSlotsExact(agenda: seq<AgendaRow>, id: string, rows: seq<AgendaRow>)
    requires forall r :: r in rows ==> r.turmaId == Some(id)
    ensures Filter(ReplaceSlots(agenda, id, rows, false, false), SlotOf(id)) == rows
    ensures Filter(ReplaceSlots(agenda, id, rows, false, false), NotSlotOf(id)) == Filter(agenda, NotSlotOf(id))
  {
    var kept := Filter(agenda, NotSlotOf(id));
    FilterNone(kept, SlotOf(id));
    FilterAll(kept, NotSlotOf(id));
    FilterAll(rows, SlotOf(id));
    FilterNone(rows, NotSlotOf(id));
    FilterAppend(kept, rows, SlotOf(id));
    FilterAppend(kept, rows, NotSlotOf(id));
    if |rows| == 0 {
      assert rows == [];
    }
  }

  /** `handleSubmit`. The class is updated (editing) or inserted under the
      database-generated `freshId`; if that write fails the screen alerts and
      stays with the database unchanged. Otherwise the class's old slots are
      deleted and the new ones inserted, and neither of those two results is
      checked before going back to the class list. */
  function Submit(db: Db, editingId: Option<string>, form: TurmaForm, schedules: seq<Entry>,
                  freshId: string, failing: set<SubmitWrite>): (r: SubmitResult)
    requires |schedules| >= 1
    ensures TurmaWrite in failing ==> r.db == db && !r.navigated
    ensures TurmaWrite !in failing ==> r.navigated
    ensures TurmaWrite !in failing && !IsEditing(editingId) ==>
      r.db.turmas == db.turmas + [NewTurma(freshId, form, NextClassLabel(schedules))]
    ensures r.db.registros == db.registros
  {
    if TurmaWrite in failing then SubmitResult(db, false)
    else
      var nextLabel := NextClassLabel(schedules);
      var turmas := WriteTurma(db.turmas, editingId, form, nextLabel, freshId);
      var turmaId := SubmitTarget(editingId, freshId);
      var agenda :=
        if turmaId == "" then db.agenda
        else ReplaceSlots(db.agenda, turmaId, AgendaInserts(turmaId, form, schedules),
                          AgendaDelete in failing, AgendaInsert in failing);
      SubmitResult(Db(turmas, agenda, db.registros), true)
  }

  /** After the class write, every class row with the target id carries the new label. */
  lemma WriteTurmaLabels(turmas: seq<Turma>, editingId: Option<string>, form: TurmaForm,
                         nextLabel: string, freshId: string)
    requires !IsEditing(editingId) ==> forall t :: t in turmas ==> t.id != freshId
    ensures forall t :: (t in WriteTurma(turmas, editingId, form, nextLabel, freshId)
                         && t.id == SubmitTarget(editingId, freshId)) ==> t.nextClass == Some(nextLabel)
  {
    var after := WriteTurma(turmas, editingId, form, nextLabel, freshId);
    if !IsEditing(editingId) {
      forall j | 0 <= j < |turmas|
        ensures after[j].id != freshId
      {
        assert after[j] == turmas[j] && turmas[j] in turmas;
      }
    }
    forall t | t in after && t.id == SubmitTarget(editingId, freshId)
      ensures t.nextClass == Some(nextLabel)
    {
      var k :| 0 <= k < |after| && after[k] == t;
    }
  }

  /** After a save without failures the class's slots in the database are
      exactly the rows written, other classes' slots are untouched, and the
      class row carries the label built from the first slot. */
  lemma SubmitReplacesSlots(db: Db, editingId: Option<string>, form: TurmaForm, schedules: seq<Entry>, freshId: string)
    requires |schedules| >= 1
    requires SubmitTarget(editingId, freshId) != ""
    requires !IsEditing(editingId) ==> forall t :: t in db.turmas ==> t.id != freshId
    ensures var target := SubmitTarget(editingId, freshId);
      var after := Submit(db, editingId, form, schedules, freshId, {}).db;
      && Filter(after.agenda, SlotOf(target)) == AgendaInserts(target, form, schedules)
      && Filter(after.agenda, NotSlotOf(target)) == Filter(db.agenda, NotSlotOf(target))
      && forall t :: t in after.turmas && t.id == target ==> t.nextClass == Some(NextClassLabel(schedules))
  {
    var target := SubmitTarget(editingId, freshId);
    var nextLabel := NextClassLabel(schedules);
    var rows := AgendaInserts(target, form, schedules);
    var after := Submit(db, editingId, form, schedules, freshId, {}).db;
    assert after.agenda == ReplaceSlots(db.agenda, target, rows, false, false);
    assert after.turmas == WriteTurma(db.turmas, editingId, form, nextLabel, freshId);
    ReplaceSlotsExact(db.agenda, target, rows);
    WriteTurmaLabels(db.turmas, editingId, form, nextLabel, freshId);
  }

  /** `fetchTurma`'s outcome: the class was not found (alert and back to the
      list), or the form and slot list it loads. */
  datatype Loaded = TurmaNotFound | Loaded(form: TurmaForm, schedules: seq<Entry>)

  /** `fetchTurma`: `.single()` on the class id, which errors (alert and back
      to the list) when the read itself fails or not exactly one row matches;
      the fields default as `students_count || 0` and `status || 'ATIVA'`; the
      slots of the class (read without any order) go through `LoadSchedules`. */
  function FetchTurma(db: Db, id: string, current: seq<Entry>, turmaReadFails: bool, agendaReadFails: bool): (r: Loaded)
    ensures r.Loaded? <==> !turmaReadFails && |Filter(db.turmas, TurmaWithId(id))| == 1
    ensures r.Loaded? && |current| >= 1 ==> |r.schedules| >= 1
  {
    if turmaReadFails then TurmaNotFound
    else match MaybeSingle(Filter(db.turmas, TurmaWithId(id)))
    case None => TurmaNotFound
    case Some(t) =>
      var status := if t.status.None? || t.status.value == "" then "ATIVA" else t.status.value;
      var form := TurmaForm(t.name, t.subject, t.studentsCount.GetOr(0), status);
      var agendaData := if agendaReadFails then None else Some(Filter(db.agenda, SlotOf(id)));
      Loaded(form, LoadSchedules(current, agendaData))
  }

  lemma {:induction false} UpdateTurmasSelect(turmas: seq<Turma>, id: string, form: TurmaForm, nextLabel: string)
    ensures var before := Filter(turmas, TurmaWithId(id));
      var after := Filter(UpdateTurmas(turmas, id, form, nextLabel), TurmaWithId(id));
      && |after| == |before|
      && forall k :: 0 <= k < |before| ==> after[k] == ApplyForm(before[k], form, nextLabel)
  {
    if turmas != [] {
      UpdateTurmasSelect(turmas[1..], id, form, nextLabel);
      var u := UpdateTurmas(turmas, id, form, nextLabel);
      assert u[1..] == UpdateTurmas(turmas[1..], id, form, nextLabel);
      var p := TurmaWithId(id);
      var before := Filter(turmas, p);
      var after := Filter(u, p);
      var restBefore := Filter(turmas[1..], p);
      if turmas[0].id == id {
        assert before == [turmas[0]] + restBefore;
        assert after == [ApplyForm(turmas[0], form, nextLabel)] + Filter(u[1..], p);
        assert |after| == |before|;
        forall k | 0 <= k < |before|
          ensures after[k] == ApplyForm(before[k], form, nextLabel)
        {
          if k > 0 {
            assert before[k] == restBefore[k - 1];
          }
        }
      } else {
        assert before == restBefore;
        assert after == Filter(u[1..], p);
      }
    }
  }

  /** When the target id named one class before an update, or none before an
      insert, exactly one class row has it afterwards, holding the form's fields. */
  lemma WriteTurmaSelect(turmas: seq<Turma>, editingId: Option<string>, form: TurmaForm,
                         nextLabel: string, freshId: string)
    requires |Filter(turmas, TurmaWithId(SubmitTarget(editingId, freshId)))| == (if IsEditing(editingId) then 1 else 0)
    ensures var selected := Filter(WriteTurma(turmas, editingId, form, nextLabel, freshId),
                                   TurmaWithId(SubmitTarget(editingId, freshId)));
      && |selected| == 1
      && selected[0].name == form.name && selected[0].subject == form.subject
      && selected[0].studentsCount == Some(form.studentsCount) && selected[0].status == Some(form.status)
  {
    var target := SubmitTarget(editingId, freshId);
    if IsEditing(editingId) {
      UpdateTurmasSelect(turmas, target, form, nextLabel);
    } else {
      FilterAppend(turmas, [NewTurma(freshId, form, nextLabel)], TurmaWithId(target));
      assert Filter(turmas, TurmaWithId(target)) == [];
    }
  }

  /** Reopening a class whose one row holds a form's fields, with the given
      agenda rows, reloads that form and those rows. */
  lemma FetchSaved(after: Db, target: string, form: TurmaForm, rows: seq<AgendaRow>, current: seq<Entry>)
    requires var selected := Filter(after.turmas, TurmaWithId(target));
      && |selected| == 1
      && selected[0].name == form.name && selected[0].subject == form.subject
      && selected[0].studentsCount == Some(form.studentsCount) && selected[0].status == Some(form.status)
    requires Filter(after.agenda, SlotOf(target)) == rows
    ensures FetchTurma(after, target, current, false, false)
      == Loaded(form.(status := if form.status == "" then "ATIVA" else form.status),
                LoadSchedules(current, Some(rows)))
  {
    var selected := Filter(after.turmas, TurmaWithId(target));
    assert MaybeSingle(selected) == Some(selected[0]);
  }

  /** Saving and reopening a class shows the form as saved (with an empty
      status shown as `ATIVA`) and the slots that had a start time; when no
      slot had one, the list on screen stays. */
  lemma SubmitThenFetch(db: Db, editingId: Option<string>, form: TurmaForm, schedules: seq<Entry>,
                        freshId: string, current: seq<Entry>)
    requires |schedules| >= 1
    requires forall e :: e in schedules ==> ' ' !in e.startTime && ' ' !in e.endTime
    requires SubmitTarget(editingId, freshId) != ""
    requires |Filter(db.turmas, TurmaWithId(SubmitTarget(editingId, freshId)))|
             == (if IsEditing(editingId) then 1 else 0)
    ensures var target := SubmitTarget(editingId, freshId);
      var after := Submit(db, editingId, form, schedules, freshId, {}).db;
      var kept := Filter(schedules, HasStart);
      FetchTurma(after, target, current, false, false)
        == Loaded(form.(status := if form.status == "" then "ATIVA" else form.status),
                  if kept == [] then current else kept)
  {
    var target := SubmitTarget(editingId, freshId);
    var nextLabel := NextClassLabel(schedules);
    var rows := AgendaInserts(target, form, schedules);
    var after := Submit(db, editingId, form, schedules, freshId, {}).db;
    assert after.agenda == ReplaceSlots(db.agenda, target, rows, false, false);
    assert after.turmas == WriteTurma(db.turmas, editingId, form, nextLabel, freshId);
    WriteTurmaSelect(db.turmas, editingId, form, nextLabel, freshId);
    ReplaceSlotsExact(db.agenda, target, rows);
    FetchSaved(after, target, form, rows, current);
    SavedSchedulesReload(target, form, schedules, current);
  }
}

=== FILE: seqs.dfy ===
/** Generic sequence operations: the order-preserving filter behind
    `Array.prototype.filter`, de-duplication as `[...new Set(xs)]` performs it,
    and a sort standing for the database's `ORDER BY`. */
module Seqs {

  /** `a` is obtained from `b` by deleting elements, keeping the order of the rest.
      Matching greedily from the left is complete for this question. */
  predicate IsSublist<T(==)>(a: seq<T>, b: seq<T>)
    decreases |b|
  {
    if a == [] then true
    else if b == [] then false
    else if a[0] == b[0] then IsSublist(a[1..], b[1..])
    else IsSublist(a, b[1..])
  }

  /** `s.filter(p)`: the elements satisfying `p`, in their original order. */
  function Filter<T(==,!new)>(s: seq<T>, p: T -> bool): (r: seq<T>)
    ensures |r| <= |s|
    ensures forall x :: x in r <==> x in s && p(x)
    ensures IsSublist(r, s)
  {
    if s == [] then []
    else if p(s[0]) then [s[0]] + Filter(s[1..], p)
    else Filter(s[1..], p)
  }

  /** Filtering keeps every copy of an element that passes and none of one
      that fails; with `IsSublist` this pins the result down to the order too. */
  lemma {:induction false} FilterCounts<T(!new)>(s: seq<T>, p: T -> bool)
    ensures forall x :: multiset(Filter(s, p))[x] == if p(x) then multiset(s)[x] else 0
  {
    if s != [] {
      FilterCounts(s[1..], p);
      assert s == [s[0]] + s[1..];
      assert multiset(s) == multiset{s[0]} + multiset(s[1..]);
    }
  }

  lemma {:induction false} FilterAppend<T(!new)>(a: seq<T>, b: seq<T>, p: T -> bool)
    ensures Filter(a + b, p) == Filter(a, p) + Filter(b, p)
  {
    if a == [] {
      assert a + b == b;
    } else {
      assert (a + b)[0] == a[0];
      assert (a + b)[1..] == a[1..] + b;
      FilterAppend(a[1..], b, p);
    }
  }

  lemma {:induction false} FilterAll<T(!new)>(s: seq<T>, p: T -> bool)
    requires forall x :: x in s ==> p(x)
    ensures Filter(s, p) == s
  {
    if s != [] {
      FilterAll(s[1..], p);
    }
  }

  lemma {:induction false} FilterNone<T(!new)>(s: seq<T>, p: T -> bool)
    requires forall x :: x in s ==> !p(x)
    ensures Filter(s, p) == []
  {
    if s != [] {
      FilterNone(s[1..], p);
    }
  }

  /** When exactly one element satisfies `p`, the filter is that element alone. */
  lemma {:induction false} FilterSingle<T(!new)>(s: seq<T>, p: T -> bool, i: int)
    requires 0 <= i < |s| && p(s[i])
    requires forall j :: 0 <= j < |s| && j != i ==> !p(s[j])
    ensures Filter(s, p) == [s[i]]
  {
    if i == 0 {
      FilterNone(s[1..], p);
    } else {
      FilterSingle(s[1..], p, i - 1);
    }
  }

  /** Filtering twice keeps what satisfies both predicates. */
  lemma {:induction false} FilterConj<T(!new)>(s: seq<T>, p: T -> bool, q: T -> bool, pq: T -> bool)
    requires forall x :: pq(x) == (p(x) && q(x))
    ensures Filter(Filter(s, p), q) == Filter(s, pq)
  {
    if s != [] {
      FilterConj(s[1..], p, q, pq);
      if p(s[0]) {
        assert Filter(s, p)[1..] == Filter(s[1..], p);
      }
    }
  }

  /** `filter` keeps an ordered sequence ordered. */
  lemma {:induction false} FilterSorted<T(!new)>(s: seq<T>, p: T -> bool, leq: (T, T) -> bool)
    requires SortedBy(s, leq)
    ensures SortedBy(Filter(s, p), leq)
  {
    if s != [] {
      FilterSorted(s[1..], p, leq);
      var rest := Filter(s[1..], p);
      forall k | 0 <= k < |rest|
        ensures leq(s[0], rest[k])
      {
        assert rest[k] in s[1..];
        var j :| 0 <= j < |s[1..]| && s[1..][j] == rest[k];
        assert s[j + 1] == rest[k];
      }
    }
  }

  /** `s.filter((_, k) => k !== i)`: drops the element at index `i`, if there is one. */
  function RemoveAt<T>(s: seq<T>, i: int): (r: seq<T>)
    ensures 0 <= i < |s| ==> r == s[..i] + s[i + 1..]
    ensures !(0 <= i < |s|) ==> r == s
  {
    if s == [] then []
    else
      var rest := RemoveAt(s[1..], i - 1);
      assert 0 < i < |s| ==> s[..i] == [s[0]] + s[1..][..i - 1] && s[i + 1..] == s[1..][i..];
      (if i == 0 then [] else [s[0]]) + rest
  }

  predicate NoDuplicates<T(==)>(s: seq<T>) {
    forall i, j :: 0 <= i < j < |s| ==> s[i] != s[j]
  }

  /** `[...new Set(s)]`: the first occurrence of each element, in order. */
  function Dedupe<T(==,!new)>(s: seq<T>): (r: seq<T>)
    ensures NoDuplicates(r)
    ensures forall x :: x in r <==> x in s
    decreases |s|
  {
    if s == [] then []
    else
      var d := Dedupe(s[..|s| - 1]);
      assert s == s[..|s| - 1] + [s[|s| - 1]];
      if s[|s| - 1] in d then d else d + [s[|s| - 1]]
  }

  // ---------------------------------------------------------------------------
  // Sorting

  ghost predicate TotalPreorder<T(!new)>(leq: (T, T) -> bool) {
    && (forall a, b :: leq(a, b) || leq(b, a))
    && (forall a, b, c :: leq(a, b) && leq(b, c) ==> leq(a, c))
  }

  predicate SortedBy<T>(s: seq<T>, leq: (T, T) -> bool) {
    forall i, j :: 0 <= i < j < |s| ==> leq(s[i], s[j])
  }

  /** Inserts `x` before the first element it is not after. */
  function InsertBy<T>(x: T, s: seq<T>, leq: (T, T) -> bool): (r: seq<T>)
    ensures |r| == |s| + 1
    ensures multiset(r) == multiset(s) + multiset{x}
  {
    if s == [] || leq(x, s[0]) then [x] + s
    else
      assert s == [s[0]] + s[1..];
      [s[0]] + InsertBy(x, s[1..], leq)
  }

  /** A stable insertion sort: the order the database returns rows in for an
      `ORDER BY` on the key `leq` compares (ties keep table order). */
  function SortBy<T>(s: seq<T>, leq: (T, T) -> bool): (r: seq<T>)
    ensures |r| == |s|
    ensures multiset(r) == multiset(s)
  {
    if s == [] then []
    else
      assert s == [s[0]] + s[1..];
      InsertBy(s[0], SortBy(s[1..], leq), leq)
  }

  lemma {:induction false} InsertBySorted<T(!new)>(x: T, s: seq<T>, leq: (T, T) -> bool)
    requires TotalPreorder(leq)
    requires SortedBy(s, leq)
    ensures SortedBy(InsertBy(x, s, leq), leq)
  {
    if s == [] || leq(x, s[0]) {
    } else {
      var tail := InsertBy(x, s[1..], leq);
      InsertBySorted(x, s[1..], leq);
      assert leq(s[0], x);
      forall k | 0 <= k < |tail|
        ensures leq(s[0], tail[k])
      {
        assert tail[k] in multiset(tail);
        assert tail[k] == x || tail[k] in s[1..];
      }
    }
  }

  lemma {:induction false} SortBySorted<T(!new)>(s: seq<T>, leq: (T, T) -> bool)
    requires TotalPreorder(leq)
    ensures SortedBy(SortBy(s, leq), leq)
  {
    if s != [] {
      SortBySorted(s[1..], leq);
      InsertBySorted(s[0], SortBy(s[1..], leq), leq);
    }
  }

  lemma SortByMembers<T>(s: seq<T>, leq: (T, T) -> bool)
    ensures forall x :: x in SortBy(s, leq) <==> x in s
  {
    var r := SortBy(s, leq);
    forall x
      ensures x in r <==> x in s
    {
      assert x in r <==> x in multiset(r);
      assert x in s <==> x in multiset(s);
    }
  }
}

=== FILE: tables.dfy ===
/** The three tables of the remote database, held in memory: `turmas`
    (classes), `agenda` (weekly recurring slots) and `registros_aula` (lesson
    records), with the nullability of the stored columns. */
module Tables {
  import opened Wrappers
  import opened Text
  import opened Calendar
  import opened Seqs

  /** JavaScript truthiness of a nullable text column: neither null nor empty. */
  predicate Truthy(s: Option<string>) {
    s.Some? && s.value != ""
  }

  datatype Turma = Turma(
    id: string,
    name: string,
    subject: string,
    studentsCount: Option<int>,
    status: Option<string>,
    nextClass: Option<string>)

  /** One weekly slot. `time` is `"HH:MM"` or `"HH:MM - HH:MM"`; `dayOfWeek` is 0 = Sunday. */
  datatype AgendaRow = AgendaRow(
    turmaId: Option<string>,
    title: string,
    time: string,
    dayOfWeek: int,
    kind: Option<string>)

  datatype Registro = Registro(
    id: string,
    turmaId: Option<string>,
    data: Option<Instant>,
    horario: Option<string>,
    conteudo: Option<string>,
    exercicios: Option<string>,
    proximosPassos: Option<string>)

  datatype Db = Db(turmas: seq<Turma>, agenda: seq<AgendaRow>, registros: seq<Registro>)

  const ClassKind: string := "CLASS"

  /** `.eq('turma_id', id)` on the agenda table. */
  function SlotOf(id: string): AgendaRow -> bool {
    (r: AgendaRow) => r.turmaId == Some(id)
  }

  /** The agenda rows `.delete().eq('turma_id', id)` leaves in place. */
  function NotSlotOf(id: string): AgendaRow -> bool {
    (r: AgendaRow) => r.turmaId != Some(id)
  }

  /** `.eq('turma_id', id)` on the lesson-record table. */
  function RecordOf(id: string): Registro -> bool {
    (r: Registro) => r.turmaId == Some(id)
  }

  /** The lesson records `.delete().eq('turma_id', id)` leaves in place. */
  function NotRecordOf(id: string): Registro -> bool {
    (r: Registro) => r.turmaId != Some(id)
  }

  /** `.eq('id', id)` on the class table. */
  function TurmaWithId(id: string): Turma -> bool {
    (t: Turma) => t.id == id
  }

  /** The classes `.delete().eq('id', id)` leaves in place; also `c.id !== id`. */
  function NotTurmaWithId(id: string): Turma -> bool {
    (t: Turma) => t.id != id
  }

  /** `.eq('id', id)` on the lesson-record table. */
  function RecordWithId(id: string): Registro -> bool {
    (r: Registro) => r.id == id
  }

  /** Some class in `turmas` has the id `id`. */
  predicate HasClass(turmas: seq<Turma>, id: string) {
    exists t :: t in turmas && t.id == id
  }

  /** Some slot in `rows` belongs to the class `id`. */
  predicate HasSlot(rows: seq<AgendaRow>, id: string) {
    exists r :: r in rows && r.turmaId == Some(id)
  }

  /** Some lesson record in `rows` belongs to the class `id`. */
  predicate HasRecord(rows: seq<Registro>, id: string) {
    exists r :: r in rows && r.turmaId == Some(id)
  }

  /** Referential integrity: every class id a lesson record (through
      `registros_aula_turma_id_fkey`) or a slot (the relation the agenda's
      `turmas!inner` embed follows) holds names an existing class. */
  predicate NoOrphans(db: Db) {
    && (forall x :: x in db.registros && x.turmaId.Some? ==> HasClass(db.turmas, x.turmaId.value))
    && (forall x :: x in db.agenda && x.turmaId.Some? ==> HasClass(db.turmas, x.turmaId.value))
  }

  predicate IsClassSlot(r: AgendaRow) {
    r.kind == Some(ClassKind)
  }

  /** The order `.order('time')` returns slots in. */
  predicate TimeLeq(a: AgendaRow, b: AgendaRow) {
    StrLeq(a.time, b.time)
  }

  /** The order `.order('day_of_week').order('time')` returns slots in. */
  predicate DayTimeLeq(a: AgendaRow, b: AgendaRow) {
    a.dayOfWeek < b.dayOfWeek || (a.dayOfWeek == b.dayOfWeek && StrLeq(a.time, b.time))
  }

  /** The order `.order('name')` returns classes in. */
  predicate NameLeq(a: Turma, b: Turma) {
    StrLeq(a.name, b.name)
  }

  lemma TimeLeqTotalPreorder()
    ensures TotalPreorder(TimeLeq)
  {
    forall a: AgendaRow, b: AgendaRow
      ensures TimeLeq(a, b) || TimeLeq(b, a)
    {
      StrLeqTotal(a.time, b.time);
    }
    forall a: AgendaRow, b: AgendaRow, c: AgendaRow | TimeLeq(a, b) && TimeLeq(b, c)
      ensures TimeLeq(a, c)
    {
      StrLeqTransitive(a.time, b.time, c.time);
    }
  }

  lemma DayTimeLeqTotalPreorder()
    ensures TotalPreorder(DayTimeLeq)
  {
    forall a: AgendaRow, b: AgendaRow
      ensures DayTimeLeq(a, b) || DayTimeLeq(b, a)
    {
      StrLeqTotal(a.time, b.time);
    }
    forall a: AgendaRow, b: AgendaRow, c: AgendaRow | DayTimeLeq(a, b) && DayTimeLeq(b, c)
      ensures DayTimeLeq(a, c)
    {
      if a.dayOfWeek == b.dayOfWeek == c.dayOfWeek {
        StrLeqTransitive(a.time, b.time, c.time);
      }
    }
  }

  lemma NameLeqTotalPreorder()
    ensures TotalPreorder(NameLeq)
  {
    forall a: Turma, b: Turma
      ensures NameLeq(a, b) || NameLeq(b, a)
    {
      StrLeqTotal(a.name, b.name);
    }
    forall a: Turma, b: Turma, c: Turma | NameLeq(a, b) && NameLeq(b, c)
      ensures NameLeq(a, c)
    {
      StrLeqTransitive(a.name, b.name, c.name);
    }
  }

  /** `.maybeSingle()` and `.single()`: the row when exactly one matched; with
      none, or with several (an error response), the data is null. */
  function MaybeSingle<T>(rows: seq<T>): (r: Option<T>)
    ensures r.Some? <==> |rows| == 1
    ensures r.Some? ==> r.value == rows[0]
  {
    if |rows| == 1 then Some(rows[0]) else None
  }
}

=== FILE: text.dfy ===
/** Character and string helpers with the semantics of the JavaScript string
    operations the screens use: `replace(/\D/g, '')`, `substring`, `includes`,
    `split`, `trim`, `toLowerCase` (ASCII only) and `Number` on digit strings. */
module Text {

  predicate IsDigit(c: char) {
    '0' <= c <= '9'
  }

  predicate AllDigits(s: string) {
    forall i :: 0 <= i < |s| ==> IsDigit(s[i])
  }

  /** The digit characters of `s`, in order; every other character is dropped. */
  function Digits(s: string): (d: string)
    ensures |d| <= |s|
    ensures AllDigits(d)
  {
    if s == [] then []
    else (if IsDigit(s[0]) then [s[0]] else []) + Digits(s[1..])
  }

  lemma {:induction false} DigitsAppend(a: string, b: string)
    ensures Digits(a + b) == Digits(a) + Digits(b)
  {
    if a == [] {
      assert a + b == b;
    } else {
      assert (a + b)[1..] == a[1..] + b;
      DigitsAppend(a[1..], b);
    }
  }

  lemma {:induction false} DigitsOfDigits(s: string)
    requires AllDigits(s)
    ensures Digits(s) == s
  {
    if s != [] {
      DigitsOfDigits(s[1..]);
    }
  }

  /** JavaScript's `s.substring(0, n)` for a non-negative `n`. */
  function Prefix(s: string, n: nat): (p: string)
    ensures |p| <= n && |p| <= |s|
    ensures p == s[..|p|]
  {
    if n <= |s| then s[..n] else s
  }

  // ---------------------------------------------------------------------------
  // Substring search

  /** `needle` occurs in `s` starting at index `i`. */
  predicate OccursAt(s: string, needle: string, i: int) {
    0 <= i && i + |needle| <= |s| && s[i..i + |needle|] == needle
  }

  /** The first index at or after `from` where `needle` occurs, or -1. */
  function IndexFrom(s: string, needle: string, from: nat): (r: int)
    ensures r == -1 || (from <= r && OccursAt(s, needle, r))
    ensures r == -1 ==> forall j :: from <= j ==> !OccursAt(s, needle, j)
    ensures r != -1 ==> forall j :: from <= j < r ==> !OccursAt(s, needle, j)
    decreases |s| - from
  {
    if from + |needle| > |s| then -1
    else if s[from..from + |needle|] == needle then from
    else IndexFrom(s, needle, from + 1)
  }

  /** JavaScript's `s.indexOf(needle)`. */
  function IndexOf(s: string, needle: string): int {
    IndexFrom(s, needle, 0)
  }

  /** JavaScript's `s.includes(needle)`. */
  function Includes(s: string, needle: string): (b: bool)
    ensures b <==> exists i :: OccursAt(s, needle, i)
  {
    IndexOf(s, needle) >= 0
  }

  // ---------------------------------------------------------------------------
  // split / join

  /** Inverse of `Split`: the parts with `sep` between consecutive ones. */
  function Join(parts: seq<string>, sep: string): string {
    if |parts| == 0 then ""
    else if |parts| == 1 then parts[0]
    else parts[0] + sep + Join(parts[1..], sep)
  }

  /** A join begins with its first part, followed by `sep` when more parts follow. */
  lemma JoinHead(parts: seq<string>, sep: string)
    requires |parts| >= 1
    ensures |parts| == 1 ==> Join(parts, sep) == parts[0]
    ensures |parts| > 1 ==> Join(parts, sep) == parts[0] + sep + Join(parts[1..], sep)
    ensures |parts| > 1 ==> OccursAt(Join(parts, sep), sep, |parts[0]|)
    ensures |parts[0]| <= |Join(parts, sep)| && Join(parts, sep)[..|parts[0]|] == parts[0]
  {
    if |parts| > 1 {
      var j := Join(parts, sep);
      assert j[|parts[0]|..|parts[0]| + |sep|] == sep;
    }
  }

  lemma PrefixBeforeFirst(s: string, sep: string, i: nat)
    requires |sep| > 0 && i <= |s|
    requires forall j :: 0 <= j < i ==> !OccursAt(s, sep, j)
    ensures !Includes(s[..i], sep)
  {
    if Includes(s[..i], sep) {
      var j :| OccursAt(s[..i], sep, j);
      assert s[..i][j..j + |sep|] == s[j..j + |sep|];
      assert OccursAt(s, sep, j);
      assert false;
    }
  }

  /** JavaScript's `s.split(sep)` for a non-empty separator: the maximal pieces
      between non-overlapping occurrences of `sep`, scanned left to right. */
  function Split(s: string, sep: string): (parts: seq<string>)
    requires |sep| > 0
    ensures |parts| >= 1
    ensures Join(parts, sep) == s
    ensures LeftmostPieces(parts, sep)
    ensures (|parts| == 1) == (IndexOf(s, sep) < 0)
    ensures |parts| > 1 ==> |parts[0]| == IndexOf(s, sep)
    decreases |s|
  {
    var i := IndexOf(s, sep);
    if i < 0 then [s]
    else
      var rest := Split(s[i + |sep|..], sep);
      SplitStep(s, sep, i, rest);
      [s[..i]] + rest
  }

  /** The facts `Split`'s contract states, gathered for `SplitStep`. */
  predicate SplitShape(s: string, sep: string, parts: seq<string>) {
    && |parts| >= 1
    && Join(parts, sep) == s
    && LeftmostPieces(parts, sep)
    && (|parts| == 1) == (IndexOf(s, sep) < 0)
    && (|parts| > 1 ==> |parts[0]| == IndexOf(s, sep))
  }

  /** Cutting at the first occurrence and putting the text before it ahead of
      the pieces of the rest keeps the shape. */
  lemma SplitStep(s: string, sep: string, i: int, rest: seq<string>)
    requires |sep| > 0 && i == IndexOf(s, sep) && i >= 0
    requires SplitShape(s[i + |sep|..], sep, rest)
    ensures SplitShape(s, sep, [s[..i]] + rest)
  {
    PrefixBeforeFirst(s, sep, i);
    FirstOccurrence(s, sep, i);
    var parts := [s[..i]] + rest;
    assert parts[1..] == rest;
    CutAt(s, sep, i);
  }

  /** A text is the part before an occurrence, the occurrence and the rest. */
  lemma CutAt(s: string, sep: string, i: int)
    requires OccursAt(s, sep, i)
    ensures s == s[..i] + sep + s[i + |sep|..]
  {
    assert s == s[..i] + s[i..i + |sep|] + s[i + |sep|..];
  }

  /** A separator found first at `i` is found first at `i` in the text up to
      and including that occurrence. */
  lemma FirstOccurrence(s: string, sep: string, i: int)
    requires |sep| > 0 && i == IndexOf(s, sep) && i >= 0
    ensures IndexOf(s[..i] + sep, sep) == i
  {
    var t := s[..i] + sep;
    assert t == s[..i + |sep|];
    assert OccursAt(t, sep, i);
    forall j | 0 <= j < i
      ensures OccursAt(t, sep, j) == OccursAt(s, sep, j)
    {
      assert t[j..j + |sep|] == s[j..j + |sep|];
    }
  }

  /** The shape of `Split`'s result: no piece holds `sep`, and each piece but
      the last ends where `sep` first occurs after it. */
  predicate LeftmostPieces(parts: seq<string>, sep: string)
    decreases |parts|
  {
    && |parts| >= 1
    && !Includes(parts[0], sep)
    && (|parts| > 1 ==> IndexOf(parts[0] + sep, sep) == |parts[0]| && LeftmostPieces(parts[1..], sep))
  }

  /** No leftmost piece holds the separator. */
  lemma {:induction false} LeftmostPiecesFree(parts: seq<string>, sep: string)
    requires LeftmostPieces(parts, sep)
    ensures forall k :: 0 <= k < |parts| ==> !Includes(parts[k], sep)
    decreases |parts|
  {
    if |parts| > 1 {
      LeftmostPiecesFree(parts[1..], sep);
      forall k | 1 <= k < |parts|
        ensures !Includes(parts[k], sep)
      {
        assert parts[k] == parts[1..][k - 1];
      }
    }
  }

  /** `Split`'s contract pins its result: any leftmost pieces that join to `s`
      are the pieces `Split` returns. */
  lemma {:induction false} SplitUnique(s: string, sep: string, parts: seq<string>)
    requires |sep| > 0 && Join(parts, sep) == s && LeftmostPieces(parts, sep)
    ensures Split(s, sep) == parts
    decreases |parts|
  {
    if |parts| == 1 {
      assert IndexOf(s, sep) < 0;
    } else {
      var tail := parts[1..];
      SplitAfterFirstPiece(s, sep, parts[0], Join(tail, sep));
      SplitUnique(Join(tail, sep), sep, tail);
      assert parts == [parts[0]] + tail;
    }
  }

  /** So `Split(s, sep)` is exactly the leftmost pieces that join to `s`. */
  lemma SplitCharacterized(s: string, sep: string, parts: seq<string>)
    requires |sep| > 0
    ensures Split(s, sep) == parts <==> Join(parts, sep) == s && LeftmostPieces(parts, sep)
  {
    if Join(parts, sep) == s && LeftmostPieces(parts, sep) {
      SplitUnique(s, sep, parts);
    }
  }

  /** A text whose first occurrence of `sep` follows `p0` splits into `p0`
      and the pieces of what follows that occurrence. */
  lemma SplitAfterFirstPiece(s: string, sep: string, p0: string, rest: string)
    requires |sep| > 0 && s == p0 + sep + rest && IndexOf(p0 + sep, sep) == |p0|
    ensures Split(s, sep) == [p0] + Split(rest, sep)
  {
    assert s == (p0 + sep) + rest;
    IndexOfExtended(p0 + sep, rest, sep);
    assert s[..|p0|] == p0;
    assert s[|p0| + |sep|..] == rest;
  }

  /** Text appended after a first occurrence does not move it. */
  lemma IndexOfExtended(t: string, rest: string, sep: string)
    requires |sep| > 0 && IndexOf(t, sep) >= 0
    ensures IndexOf(t + rest, sep) == IndexOf(t, sep)
  {
    var s := t + rest;
    var i := IndexOf(t, sep);
    forall j | 0 <= j <= i
      ensures OccursAt(s, sep, j) == OccursAt(t, sep, j)
    {
      assert s[j..j + |sep|] == t[j..j + |sep|];
    }
  }

  lemma SplitWithout(a: string, sep: string)
    requires |sep| > 0 && sep[0] !in a
    ensures Split(a, sep) == [a]
  {
    forall j | 0 <= j && j + |sep| <= |a|
      ensures !OccursAt(a, sep, j)
    {
      assert a[j..j + |sep|][0] == a[j] != sep[0];
    }
  }

  /** A piece free of the separator's first character splits off cleanly. */
  lemma SplitCons(a: string, sep: string, rest: string)
    requires |sep| > 0 && sep[0] !in a
    ensures Split(a + sep + rest, sep) == [a] + Split(rest, sep)
  {
    var s := a + sep + rest;
    assert s[|a|..|a| + |sep|] == sep;
    assert OccursAt(s, sep, |a|);
    forall j | 0 <= j < |a|
      ensures !OccursAt(s, sep, j)
    {
      if j + |sep| <= |s| {
        assert s[j..j + |sep|][0] == s[j] == a[j] != sep[0];
      }
    }
    var i := IndexOf(s, sep);
    assert i == |a|;
    assert s[..i] == a;
    assert s[i + |sep|..] == rest;
  }

  // ---------------------------------------------------------------------------
  // trim

  /** The white-space and line-terminator characters `String.prototype.trim`
      removes, restricted to the ASCII ones and the common Unicode ones. */
  predicate IsSpace(c: char) {
    c == ' ' || c == '\t' || c == '\n' || c == '\r' || c == '\U{000B}' || c == '\U{000C}'
    || c == '\U{00A0}' || c == '\U{2028}' || c == '\U{2029}' || c == '\U{FEFF}'
  }

  predicate AllSpace(s: string) {
    forall i :: 0 <= i < |s| ==> IsSpace(s[i])
  }

  function TrimStart(s: string): (r: string)
    ensures |r| <= |s| && r == s[|s| - |r|..]
    ensures r == [] <==> AllSpace(s)
    ensures r != [] ==> !IsSpace(r[0])
  {
    if s != [] && IsSpace(s[0]) then TrimStart(s[1..]) else s
  }

  function TrimEnd(s: string): (r: string)
    ensures |r| <= |s| && r == s[..|r|]
    ensures r == [] <==> AllSpace(s)
  {
    if s != [] && IsSpace(s[|s| - 1]) then TrimEnd(s[..|s| - 1]) else s
  }

  /** JavaScript's `s.trim()`: empty exactly when `s` is all white space. */
  function Trim(s: string): (r: string)
    ensures r == [] <==> AllSpace(s)
  {
    var t := TrimStart(s);
    assert t != [] ==> t[0] == s[|s| - |t|];
    TrimEnd(t)
  }

  /** Trimming text without white space changes nothing. */
  lemma TrimNoSpace(s: string)
    requires forall i :: 0 <= i < |s| ==> !IsSpace(s[i])
    ensures Trim(s) == s
  {
    assert TrimStart(s) == s;
  }

  // ---------------------------------------------------------------------------
  // lower case

  /** `toLowerCase` on one character, for the ASCII letters only. */
  function LowerChar(c: char): char {
    if 'A' <= c <= 'Z' then (c as int + 32) as char else c
  }

  function Lower(s: string): (r: string)
    ensures |r| == |s|
  {
    seq(|s|, i requires 0 <= i < |s| => LowerChar(s[i]))
  }

  // ---------------------------------------------------------------------------
  // decimal numbers

  function DigitValue(c: char): nat
    requires IsDigit(c)
  {
    c as int - '0' as int
  }

  function DigitChar(n: nat): (c: char)
    requires n < 10
    ensures IsDigit(c) && DigitValue(c) == n
  {
    ('0' as int + n) as char
  }

  /** The value of a string of decimal digits (leading zeros allowed). */
  function Decimal(s: string): nat
    requires AllDigits(s)
    decreases |s|
  {
    if s == [] then 0 else Decimal(s[..|s| - 1]) * 10 + DigitValue(s[|s| - 1])
  }

  function Pow10(n: nat): (p: nat)
    ensures p >= 1
  {
    if n == 0 then 1 else 10 * Pow10(n - 1)
  }

  lemma Pow10Small()
    ensures Pow10(2) == 100 && Pow10(4) == 10000 && Pow10(6) == 1_000_000
  {
    assert Pow10(1) == 10;
    assert Pow10(3) == 1000;
    assert Pow10(5) == 100_000;
  }

  /** `n` written with exactly `width` decimal digits, zero-padded on the left. */
  function Pad(n: nat, width: nat): (s: string)
    requires n < Pow10(width)
    ensures |s| == width && AllDigits(s)
    ensures Decimal(s) == n
  {
    if width == 0 then ""
    else
      var s := Pad(n / 10, width - 1) + [DigitChar(n % 10)];
      assert s[..|s| - 1] == Pad(n / 10, width - 1);
      s
  }

  // ---------------------------------------------------------------------------
  // ordering

  /** Code-point lexicographic order on strings (`ORDER BY` under the "C" collation). */
  predicate StrLeq(a: string, b: string)
    decreases |a|
  {
    a == [] || (b != [] && (a[0] < b[0] || (a[0] == b[0] && StrLeq(a[1..], b[1..]))))
  }

  lemma {:induction false} StrLeqTotal(a: string, b: string)
    ensures StrLeq(a, b) || StrLeq(b, a)
    decreases |a|
  {
    if a != [] && b != [] && a[0] == b[0] {
      StrLeqTotal(a[1..], b[1..]);
    }
  }

  lemma {:induction false} StrLeqTransitive(a: string, b: string, c: string)
    requires StrLeq(a, b) && StrLeq(b, c)
    ensures StrLeq(a, c)
    decreases |a|
  {
    if a != [] && b != [] && c != [] && a[0] == b[0] == c[0] {
      StrLeqTransitive(a[1..], b[1..], c[1..]);
    }
  }
}

=== FILE: wrappers.dfy ===
/** The Option datatype used for nullable columns and for query results that may be absent. */
module Wrappers {

  /** `None` stands for JavaScript's `null`/`undefined`; `Some(v)` for a present value. */
  datatype Option<+T> = None | Some(value: T) {

    /** The value, or `default` when absent (the source's `x ?? default`). */
    function GetOr(default: T): T {
      match this
      case Some(v) => v
      case None => default
    }
  }
}
